=== FILE: README.md ===
# Zenith diagnostics core, modelled in Dafny

Zenith is a small Streamlit application. A user describes a PC (CPU, GPU, RAM,
storage, operating system), names the application they want to run and the
symptoms they see. The controller then works in four steps:

1. It asks a diagnostics service to run.
2. The service validates the telemetry and formats a prompt.
3. It sends one request to a Gemini model through a repository adapter.
4. It hydrates the JSON answer into typed records (diagnosis, compatibility,
   tweaks, warnings).

The results page then renders those records as HTML cards, with every
untrusted text escaped. A failure anywhere becomes one error card that shows
an (error code, message) pair.

This project models that path as pure functions over immutable datatypes:

| module | file | models |
|---|---|---|
| `Results` | `results.dfy` | `Option` and `Result` |
| `Text` | `text.dfy` | Python's `str.strip()` and `str.isspace()`, and the narrower whitespace `int()` skips |
| | | ASCII `lower()` |
| | | the decimal `int()` literal grammar and its 4300-digit limit |
| | | the decimal text of an integer |
| `PyJson` | `pyjson.dfy` | the values `json.loads` produces (null, bool, integer, string, list, dict, after section 3 of RFC 8259) |
| | | Python's behaviour on them: truthiness, type names, `str()`/`repr()`, iteration, `dict.get` |
| | | the texts of the `AttributeError`/`TypeError` they raise |
| `Exceptions` | `exceptions.dfy` | the four domain exception classes |
| `Models` | `models.dfy` | `_safe_int`, `_clamp`, `TelemetryInput.format_prompt`, the five record dataclasses, `DiagnosticResponse.from_dict` |
| `GeminiClient` | `gemini_client.dfy` | the adapter's key check and request |
| | | the classification of what the SDK returns |
| `DiagnosticsService` | `diagnostics_service.dfy` | the service's key check, the validation, and the `run_diagnostics` pipeline with its error re-mapping |
| `Renderers` | `renderers.dfy` | escaping, colour bands, the safety badge, the command filter, the three-tweak cap |
| | | which blocks `render_full_results` writes, in which order, and where a rendering fault stops it |
| `App` | `app.dfy` | the controller: form defaulting, the `try`/`except` mapping from exceptions to error cards, the page after a submission |

The model keeps several decisions of the Python code visible:

- **Partial hydration.** Hydration can fail. It fails with the Python
  exception text that the service later embeds in its message (for example,
  `'NoneType' object has no attribute 'get'`).
- **Raw tweak fields.** Tweak and warning fields are kept as raw JSON values,
  because `from_dict` passes them through uncoerced. So rendering can raise,
  for example when a tweak's `safety` is JSON null. That fault reaches the
  page as an `UNHANDLED_SYSTEM_FAULT` card.
- **The outside world as parameters.** The Gemini SDK call, `json.loads` and
  the system instruction are fields of a `Backend` value. The value of
  `GOOGLE_API_KEY` is a parameter.
- **Error-message nesting.** In `run_diagnostics`, only
  `ExternalServiceError` is re-raised as is
  (service/diagnostics_service.py:73-75). Every other exception is caught by
  `except Exception` and re-wrapped (service/diagnostics_service.py:76-80).
  That includes the adapter's own `DataParsingError`. So undecodable text is
  reported as `Failed to hydrate domain models from payload: Failed to parse
  Gemini response as JSON: ...`.
  `DiagnosticsService.UndecodableTextDoubleWrapped` states the nested message.

## Model

| member | source | states |
|---|---|---|
| Text.Strip | service/diagnostics_service.py:28 | `strip()` leaves no whitespace at either end, never grows the text, and is empty exactly for whitespace-only input |
| Text.StripPadded | app.py:129 | stripping whitespace padding around a trimmed text gives back exactly that text |
| Text.StripIdempotent | app.py:129 | stripping twice is stripping once |
| Text.ParseIntLiteral | domain/models.py:8 | `int()` of empty or whitespace-only text fails; text it accepts is the `strip()`-ed text read as an optional sign and at most 4300 digits, with only whitespace `int()` skips (not U+001C to U+001F) around it |
| Text.ParseIntText | domain/models.py:8 | `int()` reads back the decimal text of every integer of at most 4300 digits, surrounded by any whitespace `int()` skips |
| Text.ParseIntRejects | domain/models.py:8-10 | a character other than whitespace `int()` skips, a digit or a sign makes `int()` of a text fail; the separators U+001C to U+001F count as such characters |
| Text.ParseIntSeparator | domain/models.py:8-10 | a separator U+001C to U+001F anywhere in the text makes `int()` fail, although `str.isspace` accepts it and `strip()` would remove it |
| Text.ParseIntTooLong | domain/models.py:8-10 | a run of more than 4300 digits is refused, as CPython's default `int()` digit limit demands |
| PyJson.LookupFinds | domain/models.py:105 | `dict.get` finds a value exactly when the key is present, and the value found is stored under that key |
| PyJson.GetStoredOrDefault | domain/models.py:125-138 | `d.get(key, default)` gives a value stored under the key when the key is present, and the default otherwise |
| PyJson.Iterate | domain/models.py:123 | only lists, strings and dicts can be iterated; anything else raises `'<type>' object is not iterable`; falsy values give no items; a list yields its own items, in order |
| PyJson.IterateItems | domain/models.py:123 | a string yields its characters as one-character strings, and a dict its keys, in order |
| PyJson.Str | domain/models.py:107 | `str()` of a string is that string; `str()` is empty only for the empty string; for any other kind of value it is non-empty and starts the way a `repr` does |
| Exceptions.ClassNameAndMessageIdentify | domain/exceptions.py:14-28 | a domain error is identified by its class name and message together |
| Models.SafeInt | domain/models.py:5-10 | booleans coerce to 1/0; null, lists and dicts fall back to the default 0 |
| Models.SafeIntOfIntText | domain/models.py:5-10 | an integer of at most 4300 digits and its decimal text both coerce to that integer |
| Models.SafeIntOfText | domain/models.py:5-10 | integer text of at most 4300 digits, surrounded by whitespace `int()` skips, coerces to its value |
| Models.SafeIntOfNonNumericText | domain/models.py:5-10 | text with a character that cannot be part of an integer literal, a U+001C to U+001F separator included, falls back to 0 |
| Models.SafeIntOfLongText | domain/models.py:5-10 | a run of more than 4300 digits makes `int()` raise, so it coerces to 0 |
| Models.Clamp | domain/models.py:13-15 | the result lies in `[lo, hi]` when `lo <= hi`; an in-range value is unchanged; values outside go to the nearer bound; with `hi < lo` the result is `lo` |
| Models.FormatPrompt | domain/models.py:32-44 | the prompt is the seven fields in a fixed 126-character frame that opens with the specs heading and ends with a newline |
| Models.PromptRoundTrip | domain/models.py:32-44 | the prompt template is lossless: parsing the formatted prompt recovers all seven fields when they are single-line |
| Models.HydrateDiagnosis | domain/models.py:105-112 | a diagnosis hydrates exactly from a dict (anything else raises the `get` error); the bottleneck, plain-English and reasoning texts are `str()` of the stored value or of the default; the severity is the stored value (or 0) coerced and clamped to 0..10; the secondary bottleneck is the stored value or null |
| Models.HydrateCompatibility | domain/models.py:114-120 | hydration succeeds exactly for a falsy value or a dict (another truthy value raises the `get` error); the assessment is absent exactly when the value is falsy; the score is the stored value (or 0) coerced and clamped to 0..100; the note is `str()` of the stored value or of "" |
| Models.TweakOf | domain/models.py:124-132 | each of the seven tweak fields is the value stored under its key, or the default when the key is absent |
| Models.DoNotDoOf | domain/models.py:136-139 | each warning field is the value stored under its key, or empty text when the key is absent |
| Models.HydrateAll | domain/models.py:122-139 | the element loop succeeds exactly when every element is a dict, keeps length and order, and otherwise raises the `get` error of the first non-dict element |
| Models.HydrateList | domain/models.py:122-139 | a list field hydrates exactly when it is a list of dicts, the empty string or the empty dict; a list gives one record per element, built from that element, in order; the empty string or dict gives none |
| Models.Hydrate | domain/models.py:101-146 | `from_dict` succeeds exactly on the hydratable shapes; the integers it produces are in range; compatibility is absent exactly when the stored value is falsy |
| Models.HydrateParts | domain/models.py:101-120 | the diagnosis and the compatibility of a hydrated payload are hydrated from the values stored under their keys, or from the keys' defaults |
| Models.HydrateKeepsLists | domain/models.py:122-139 | the tweaks and warnings of a hydrated payload keep the stored lists' length and order: record `i` is built from the dict at position `i` |
| Models.HydrateWithoutKnownKeys | domain/models.py:105-146 | a dict with none of the four keys hydrates to the defaults: "Unknown", severity 0, empty texts, no secondary, no compatibility, no tweaks, no warnings |
| Models.BottleneckDefault | domain/models.py:107 | the bottleneck type reads "Unknown" only when the key is absent or holds that very text; JSON null becomes "None" |
| Models.TweakDefaults | domain/models.py:124-132 | a tweak element missing all keys gets empty texts and empty step and command lists |
| Models.DoNotDoDefaults | domain/models.py:136-139 | a warning element missing both keys gets empty texts |
| Models.TweakRoundTrip | domain/models.py:124-132 | every tweak field is passed through unchanged |
| Models.DoNotDoRoundTrip | domain/models.py:136-139 | both warning fields are passed through unchanged |
| Models.DiagnosisRoundTrip | domain/models.py:105-112 | a diagnosis with an in-range severity survives encoding and hydration |
| Models.CompatibilityRoundTrip | domain/models.py:114-120 | an assessment with an in-range score, or its absence, survives encoding and hydration |
| Models.TweaksRoundTrip | domain/models.py:122-132 | a list of tweaks hydrates back to itself, length and order kept |
| Models.WarningsRoundTrip | domain/models.py:134-139 | a list of warnings hydrates back to itself, length and order kept |
| Models.HydrateRoundTrip | domain/models.py:101-146 | every in-range response is the hydration of its own JSON encoding, so the responses hydration can produce are exactly the in-range ones |
| Models.SeverityExamples | domain/models.py:108 | severity 99 becomes 10 and -5 becomes 0 |
| Models.SeverityTextExamples | domain/models.py:108 | severity text " 7 " becomes 7 and "abc" becomes 0 |
| Models.SeparatorSeverityExample | domain/models.py:108 | a severity of "7" padded with U+001C becomes 0, although `strip()` would reduce the text to "7" |
| Models.ScoreExamples | domain/models.py:114-120 | score 150 becomes 100; a dict with score 0 still yields an assessment; an empty dict yields none |
| GeminiClient.NewRepository | repository/gemini_client.py:25-30 | the adapter is created exactly for a non-empty key, and refuses an empty one with the `ExternalServiceError` message |
| GeminiClient.BuildRequest | repository/gemini_client.py:49-57 | the request carries the fixed model, instruction, MIME type and temperature 0.3; its contents are the prompt unchanged |
| GeminiClient.FetchDiagnosis | repository/gemini_client.py:33-75 | one request per call, built as above; every failure is an `ExternalServiceError` or a `DataParsingError` |
| GeminiClient.FetchClassification | repository/gemini_client.py:58-75 | the service is blamed exactly when the SDK raised or gave no text; the decoder is blamed exactly when text did not decode; decoded JSON of any shape is returned unchanged |
| GeminiClient.FetchMessages | repository/gemini_client.py:58-75 | the three failure messages carry the exception's text, the empty-response text and the decoder's text respectively |
| GeminiClient.ServiceMessagesDistinct | repository/gemini_client.py:60-64 | no generation failure reads like the empty-response message |
| GeminiClient.EmptyResponseBlame | repository/gemini_client.py:58-64 | the empty-response message is reported exactly when the SDK returned without text, never for a raised exception |
| DiagnosticsService.NewService | service/diagnostics_service.py:26-35 | the service exists exactly when the key is not blank; a blank key is a `ConfigurationError` and no adapter is made; service and adapter hold the same stripped key |
| DiagnosticsService.NewServiceStripsKey | service/diagnostics_service.py:28 | whitespace around the key is ignored |
| DiagnosticsService.ValidateTelemetry | service/diagnostics_service.py:37-49 | validation passes exactly when cpu, gpu and application hold text other than whitespace and OS and storage are truthy; otherwise it raises the one `ValidationError` message |
| DiagnosticsService.ValidationIgnoresRamAndSymptoms | service/diagnostics_service.py:39-45 | `ram` and `symptoms` never change the verdict |
| DiagnosticsService.WhitespaceChoicesPass | service/diagnostics_service.py:43-44 | a whitespace-only OS or storage passes, since only the three typed fields are stripped |
| DiagnosticsService.RunDiagnostics | service/diagnostics_service.py:51-80 | invalid input fails before any request; valid input makes exactly one request, with the formatted prompt |
| DiagnosticsService.RunSucceeds | service/diagnostics_service.py:66-72 | a run succeeds exactly when the input is valid, the answer is text that decodes, and the decoded value is hydratable; the result is then the hydration of that value |
| DiagnosticsService.RunValidationErrors | service/diagnostics_service.py:66 | a run ends in a `ValidationError` exactly when the input is invalid, and never in a `ConfigurationError` |
| DiagnosticsService.RunPassesServiceErrors | service/diagnostics_service.py:73-75 | an `ExternalServiceError` from the adapter passes through unchanged |
| DiagnosticsService.RunWrapsParseErrors | service/diagnostics_service.py:76-80 | the adapter's `DataParsingError` is re-wrapped with the hydration prefix |
| DiagnosticsService.RunWrapsHydrationFaults | service/diagnostics_service.py:76-80 | a decoded value that cannot be hydrated becomes a `DataParsingError` whose message is the hydration prefix followed by the text of the exception hydration raised |
| DiagnosticsService.UndecodableTextDoubleWrapped | service/diagnostics_service.py:76-80 | undecodable text is reported with the adapter's prefix inside the service's |
| Renderers.Escape | ui/renderers.py:24 | `html.escape(..., quote=True)` output has no `<`, `>`, `"` or `'`, and every `&` in it opens an entity |
| Renderers.EscapedMeans | ui/renderers.py:18-24 | the escaped-text property, read position by position |
| Renderers.UnescapeEscape | ui/renderers.py:24 | escaping loses nothing: undoing the five entities gives back the input |
| Renderers.EscapePlain | ui/renderers.py:24 | text without markup characters or `&` is left as it is |
| Renderers.Sanitize | ui/renderers.py:18-24 | `_sanitize` output is escaped, and undoing the escaping gives `str()` of the value |
| Renderers.SeverityColor | ui/renderers.py:27-33 | green exactly for scores up to 3, amber exactly for 4 to 6, red exactly from 7 |
| Renderers.SeverityColorMonotone | ui/renderers.py:27-33 | a higher severity never gets a calmer colour |
| Renderers.CompatibilityColor | ui/renderers.py:104-109 | green exactly from 70, amber exactly for 40 to 69, red exactly below 40 |
| Renderers.CompatibilityColorAntitone | ui/renderers.py:104-109 | a higher score never gets a more alarming colour |
| Renderers.SafetyBadge | ui/renderers.py:36-43 | the badge is "caution" exactly for lowercased "caution" and "risky" exactly for "advanced"; anything else is "safe"; a non-string safety raises `'<type>' object has no attribute 'lower'` |
| Renderers.SafetyBadgeIgnoresCase | ui/renderers.py:43 | the badge depends on the lowercased text only |
| Renderers.SafetyBadgeExamples | ui/renderers.py:38-43 | "CAUTION", "Advanced", "unknown" and null map as the table and the `lower` call dictate |
| Renderers.FilterCommands | ui/renderers.py:141 | the filter keeps exactly the commands that are truthy and not "null" |
| Renderers.FilterCommandsCounts | ui/renderers.py:141 | every copy of a kept command is kept, duplicates included, and a dropped command leaves no copy |
| Renderers.FilterCommandsKeepsOrder | ui/renderers.py:141 | the commands kept stay in their original order |
| Renderers.FilterCommandsIdempotent | ui/renderers.py:141 | filtering twice is filtering once |
| Renderers.FilterCommandsExample | ui/renderers.py:141 | `["cmd1", "null", "", "cmd2"]` becomes `["cmd1", "cmd2"]` |
| Renderers.ShownTweaks | ui/renderers.py:221 | `tweaks[:3]` is the first `min(3, n)` tweaks, in order |
| Renderers.TwoDigits | ui/renderers.py:159 | `{n:02d}` is at least two digits and reads back as `n` |
| Renderers.TweakLabels | ui/renderers.py:159 | the three cards are labelled 01, 02 and 03 |
| Renderers.RenderDiagnosis | ui/renderers.py:46-99 | the header shows the bottleneck type, the severity itself with its band colour, and a secondary badge exactly for a truthy secondary bottleneck showing `str()` of it; the summary shows the plain-English text, and the reasoning exactly when it is non-empty; every text is escaped and unescapes to its field |
| Renderers.RenderCompatibility | ui/renderers.py:102-124 | the card shows the score with its band colour and the escaped note, which unescapes to the note |
| Renderers.SanitizeAll | ui/renderers.py:135-138 | every step is escaped and unescapes to `str()` of the step |
| Renderers.RenderTweakCard | ui/renderers.py:127-171 | a card renders exactly when `safety` is text and `steps` and `commands` are iterable; otherwise it raises the fault of the first failing use, in source order; a rendered card is escaped |
| Renderers.TweakCardContents | ui/renderers.py:127-153 | once escaping is undone, a card shows `str()` of the title, type, safety level and rationale, the looked-up badge, and a revert line exactly for a truthy `revert`, reading `str()` of it |
| Renderers.TweakCardSteps | ui/renderers.py:135-138 | the card lists one entry per step, in order, each reading `str()` of its step once escaping is undone |
| Renderers.TweakCardCommands | ui/renderers.py:141-144 | the card lists one entry per kept command, in order, each reading `str()` of its command once escaping is undone |
| Renderers.RenderEachMeans | ui/renderers.py:221-222 | the card loop writes each item's card in order, and stops exactly at the first item whose card raises, with that item's fault |
| Renderers.WarningCardOf | ui/renderers.py:177-186 | a warning card is escaped and, once escaping is undone, reads `str()` of the action and of the reason |
| Renderers.RenderWarnings | ui/renderers.py:224-226 | warnings add a rule, the heading and one card per warning, in order, and nothing when there are none |
| Renderers.RenderTweaks | ui/renderers.py:219-222 | the tweak loop writes at most one card per shown tweak |
| Renderers.TweaksFault | ui/renderers.py:219-222 | the tweak loop raises exactly when one of the first three tweaks cannot be rendered |
| Renderers.TweaksShown | ui/renderers.py:221-222 | without a fault, the loop shows the card of each of the first three tweaks, numbered from 01 |
| Renderers.TweaksAreCards | ui/renderers.py:219-222 | the loop writes only escaped tweak cards |
| Renderers.TweaksFirstFault | ui/renderers.py:221-222 | a fault comes from the first shown tweak that cannot be rendered, and every tweak before it renders |
| Renderers.ResultsFault | ui/renderers.py:209-226 | the results page ends in a fault exactly when one of the first three tweaks cannot be rendered |
| Renderers.RenderFullResults | ui/renderers.py:209-226 | the page raises only from the tweak loop, and only when there are tweaks |
| Renderers.ResultsEscaped | ui/renderers.py:209-226 | every text on the results page is escaped |
| Renderers.ResultsHeadings | ui/renderers.py:209-226 | the page's headings, in order: Diagnosis, then Compatibility when assessed, then Optimizations when there are tweaks, then the rule and Do Not Do when there are warnings and no fault came first |
| Renderers.ResultsTweakCards | ui/renderers.py:219-222 | when the first three tweaks render, the page's tweak cards are exactly theirs, in order, and there is no fault |
| Renderers.ResultsFirstFault | ui/renderers.py:219-222 | a fault on the page is the one raised by the first shown tweak that cannot be rendered |
| Renderers.ResultsWarningCards | ui/renderers.py:224-226 | the page's warning cards are every warning, in order, unless a tweak card raised first |
| Renderers.ResultsStartWithHead | ui/renderers.py:211-217 | the diagnosis and compatibility sections come first, whatever follows |
| Renderers.SectionPresence | ui/renderers.py:215-226 | compatibility appears exactly when assessed, whatever the score; optimizations exactly when there are tweaks; warnings exactly when there are some and no fault came first; the diagnosis heading comes first |
| Renderers.RenderError | ui/renderers.py:189-206 | the error card escapes both texts and loses neither |
| App.DefaultBlank | app.py:129 | missing, empty or whitespace-only input becomes "Not specified"; other input is stripped; the result is never empty |
| App.DefaultBlankKeepsText | app.py:129 | only the whitespace around an entry is dropped |
| App.DefaultBlankMissing | app.py:129 | a missing or empty entry reads "Not specified" |
| App.DefaultBlankPadded | app.py:129 | " 16GB " becomes "16GB" |
| App.BuildTelemetry | app.py:126-134 | `ram` and `symptoms` are defaulted; cpu, gpu, application, OS and storage are passed on unstripped |
| App.ErrorPair | app.py:157-160 | a domain error shows its class name and message; any other exception shows `UNHANDLED_SYSTEM_FAULT` and the prefixed text |
| App.ErrorPairInjective | app.py:157-160 | different exceptions are shown with different pairs |
| App.ErrorCardOf | app.py:157-160 | the error card is escaped and unescapes to the exception's pair |
| App.ShowResults | app.py:155-160 | the results are shown; a rendering fault adds one unhandled-fault card after what was already written |
| App.ShowResultsEscaped | app.py:155-160 | every text shown after a successful run is escaped |
| App.ShowRun | app.py:152-158 | a failed run shows only its domain error's card; a successful one shows the results |
| App.Submit | app.py:136-160 | a submission makes at most one request; a blank key shows the `ConfigurationError` card before the form is looked at; otherwise the page is what the run shows |
| App.SubmitInvalidForm | app.py:136-152 | validation fails exactly when cpu, gpu or application is blank or OS or storage is missing; `ram` and `symptoms` play no part; a failing form shows exactly the `ValidationError` card and makes no request |
| App.SubmitEscaped | app.py:136-160 | every text on the page after any submission is escaped |
| App.NullSafetyIsUnhandled | app.py:159-160 | a first tweak whose `safety` is null stops the page with `'NoneType' object has no attribute 'lower'`, shown as an unhandled system fault |

## Left out

- Streamlit layout and HTML. The `st.*` calls, HTML templates, CSS, the
  SVG widget, the JavaScript components and the spinner banner are not
  modelled. Each `st.markdown` call is a `Block` value carrying the texts it
  shows.
- `SYSTEM_PROMPT`. Its content is a parameter (`Backend.systemPrompt`).
  `GEMINI_MODEL` is a constant taken from `config.py:8`.
- The SDK and `json.loads`. The Gemini SDK call, the network and the
  internals of `json.loads` are parameters: `Backend.generate` returns
  `Raised` with the exception's text, or `Returned` with optional response
  text; `Backend.loads` returns the decoded value or the decoder's message.
  Exceptions other than `JSONDecodeError` from the decoder, and a failure
  of `genai.Client(...)` itself, are not modelled.
- `os.environ`. The value of `GOOGLE_API_KEY` is passed in as an optional
  text.
- Logging, because it has no effect on results.
- Floating point. JSON numbers are integers. The temperature 0.3 appears only
  as a constant of the request. `int()` of a float and the `OverflowError`
  on infinity are out of scope.
- Unicode. `lower()` is ASCII only. `int()` accepts an optional sign and
  ASCII digits, surrounded by the whitespace it skips (ASCII 9 to 13 and
  32, and the non-ASCII characters `str.isspace` accepts); underscores and
  non-ASCII digits are not accepted.
- The 4300-digit limit outside `int()`. `int()` of text refuses more than
  4300 digits, as in CPython's default configuration. Two other places
  where the limit applies are not modelled. First, `str()` of an integer
  with more digits raises `ValueError`; the model gives its text. Second,
  `json.loads` raises `ValueError` (not `JSONDecodeError`) on such an
  integer literal; the abstract decoder is taken never to produce one.
- PyJson.Repr: `repr` escapes quotes, backslashes and ASCII control
  characters. It does not escape non-printable characters beyond ASCII.
- Duplicate keys. JSON objects are key/value sequences whose keys are taken
  to be distinct, as in the dict `json.loads` builds. Lookup takes the first
  match, and collapsing duplicate keys is left to the abstract decoder.
- Other unexpected exceptions. Of the exceptions the controller's second
  `except` catches, only rendering faults are modelled. An exception with
  any other text is represented by `App.Fault.Unhandled` with its
  description.
- Models.SafeInt: its contract does not state the result for a string by
  itself. The integer-text and non-numeric cases are separate lemmas
  (`SafeIntOfIntText`, `SafeIntOfText`, `SafeIntOfNonNumericText`,
  `SafeIntOfLongText`), and a lone or misplaced sign is covered only by the
  definition.

=== FILE: app.dfy ===
/** The controller: turns the submitted form into telemetry, runs the
    service and puts either the results or one error card on the page. */
module App {
  import opened Results
  import opened Text
  import opened PyJson
  import opened Exceptions
  import opened Models
  import opened GeminiClient
  import opened DiagnosticsService
  import opened Renderers

  const NotSpecified := "Not specified"
  const UnhandledCode := "UNHANDLED_SYSTEM_FAULT"
  const UnhandledPrefix := "A critical unhandled error occurred: "

  /** The widgets' values when the button is pressed. The two select boxes
      start with nothing selected; the optional texts may be missing. */
  datatype Form = Form(
    cpu: string,
    gpu: string,
    ram: Option<string>,
    osName: Option<string>,
    storage: Option<string>,
    application: string,
    symptoms: Option<string>)

  /** `(value or "").strip() if (value or "").strip() else "Not specified"`. */
  function DefaultBlank(o: Option<string>): (r: string)
    ensures r != [] && Trimmed(r)
    ensures Blank(o.GetOr("")) ==> r == NotSpecified
    ensures !Blank(o.GetOr("")) ==> r == Strip(o.GetOr(""))
  {
    var t := Strip(o.GetOr(""));
    if t != [] then t else NotSpecified
  }

  /** Whatever surrounds a non-blank entry is dropped, and only that. */
  lemma DefaultBlankKeepsText(pre: string, t: string, post: string)
    requires Blank(pre) && Blank(post) && Trimmed(t) && t != []
    ensures DefaultBlank(Some(pre + t + post)) == t
  {
    StripPadded(pre, t, post);
  }

  lemma DefaultBlankMissing()
    ensures DefaultBlank(None) == NotSpecified
    ensures DefaultBlank(Some("")) == NotSpecified
  {
  }

  lemma DefaultBlankPadded()
    ensures DefaultBlank(Some(" 16GB ")) == "16GB"
  {
    DefaultBlankKeepsText(" ", "16GB", " ");
    assert " " + "16GB" + " " == " 16GB ";
  }

  /** The `TelemetryInput` the controller builds: `ram` and `symptoms`
      defaulted, the other five fields passed on untouched (not stripped). */
  function BuildTelemetry(f: Form): (t: TelemetryInput)
    ensures t.cpu == f.cpu && t.gpu == f.gpu && t.application == f.application
    ensures t.osName == f.osName && t.storage == f.storage
    ensures t.ram == DefaultBlank(f.ram) && t.symptoms == DefaultBlank(f.symptoms)
  {
    TelemetryInput(
      cpu := f.cpu,
      gpu := f.gpu,
      ram := DefaultBlank(f.ram),
      storage := f.storage,
      osName := f.osName,
      application := f.application,
      symptoms := DefaultBlank(f.symptoms))
  }

  /** What the controller's `try` block can catch: a domain error, or any
      other exception, known by its text. */
  datatype Fault = Domain(error: DomainError) | Unhandled(description: string)

  /** The (error code, message) pair shown for a caught exception. */
  function ErrorPair(e: Fault): (p: (string, string))
    ensures e.Domain? ==> p == (ClassName(e.error), e.error.message)
    ensures e.Unhandled? ==> p.0 == UnhandledCode && p.1 == UnhandledPrefix + e.description
  {
    match e
    case Domain(err) => (ClassName(err), err.message)
    case Unhandled(d) => (UnhandledCode, UnhandledPrefix + d)
  }

  /** Different exceptions are shown differently: the pair identifies what
      was caught. */
  lemma ErrorPairInjective(a: Fault, b: Fault)
    ensures ErrorPair(a) == ErrorPair(b) <==> a == b
  {
    if ErrorPair(a) == ErrorPair(b) {
      if a.Domain? && b.Domain? {
        ClassNameAndMessageIdentify(a.error, b.error);
      } else if a.Unhandled? && b.Unhandled? {
        var pa, pb := ErrorPair(a).1, ErrorPair(b).1;
        assert a.description == pa[|UnhandledPrefix|..];
        assert b.description == pb[|UnhandledPrefix|..];
      }
    }
  }

  /** The page below the form after a submission, and the requests made to
      the reasoning service. */
  datatype Screen = Screen(blocks: seq<Block>, requests: seq<Request>)

  /** What a successful run puts on the page: the results, and when
      rendering raised, an error card for that fault after what was already
      written. */
  function ShowResults(response: DiagnosticResponse): (bs: seq<Block>)
    ensures RenderFullResults(response).blocks <= bs
    ensures RenderFullResults(response).fault.None? <==> bs == RenderFullResults(response).blocks
    ensures RenderFullResults(response).fault.Some? ==>
              bs == RenderFullResults(response).blocks
                    + [ErrorCardOf(Unhandled(FaultMessage(RenderFullResults(response).fault.value)))]
  {
    var out := RenderFullResults(response);
    match out.fault
    case None => out.blocks
    case Some(f) => out.blocks + [ErrorCardOf(Unhandled(FaultMessage(f)))]
  }

  function ErrorCardOf(e: Fault): (b: Block)
    ensures b.ErrorCard? && CardEscaped(b)
    ensures (Unescape(b.code), Unescape(b.message)) == ErrorPair(e)
  {
    RenderError(ErrorPair(e).0, ErrorPair(e).1)
  }

  /** Every text the controller shows after a successful run is escaped. */
  lemma ShowResultsEscaped(response: DiagnosticResponse)
    ensures CardsEscaped(ShowResults(response))
  {
    ResultsEscaped(response);
    var out := RenderFullResults(response);
    if out.fault.Some? {
      var card := ErrorCardOf(Unhandled(FaultMessage(out.fault.value)));
      CardsEscapedConcat(out.blocks, [card]);
    }
  }

  /** What a finished run puts on the page. */
  function ShowRun(run: Run): (s: Screen)
    ensures s.requests == run.requests
    ensures run.result.Failure? ==> s.blocks == [ErrorCardOf(Domain(run.result.error))]
    ensures run.result.Success? ==> s.blocks == ShowResults(run.result.value)
  {
    match run.result
    case Failure(e) => Screen([ErrorCardOf(Domain(e))], run.requests)
    case Success(response) => Screen(ShowResults(response), run.requests)
  }

  /** The controller's branch for a pressed button, given the value of
      `GOOGLE_API_KEY`. The service is created inside the `try`, so a
      missing key is reported like any other domain error, before the form
      is looked at. */
  function Submit(form: Form, env: Option<string>, backend: Backend): (s: Screen)
    ensures |s.requests| <= 1
    ensures Blank(env.GetOr("")) ==> s == Screen([ErrorCardOf(Domain(ConfigurationError(KeyNotSetMessage)))], [])
    ensures NewService(env).Success? ==>
              s == ShowRun(RunDiagnostics(NewService(env).value, backend, BuildTelemetry(form)))
  {
    match NewService(env)
    case Failure(e) => Screen([ErrorCardOf(Domain(e))], [])
    case Success(service) => ShowRun(RunDiagnostics(service, backend, BuildTelemetry(form)))
  }

  /** A form that fails validation never reaches the reasoning service and
      shows exactly the validation error; `ram` and `symptoms` cannot cause
      it. */
  lemma SubmitInvalidForm(form: Form, env: Option<string>, backend: Backend)
    requires !Blank(env.GetOr(""))
    ensures var s := Submit(form, env, backend);
            && (ValidateTelemetry(BuildTelemetry(form)).Some? <==>
                  !(HasText(form.cpu) && HasText(form.gpu) && HasText(form.application)
                    && Present(form.osName) && Present(form.storage)))
            && (ValidateTelemetry(BuildTelemetry(form)).Some? ==>
                  s == Screen([RenderError("ValidationError", MissingFieldsMessage)], []))
  {
  }

  /** Every text on the page after a submission has been escaped. */
  lemma SubmitEscaped(form: Form, env: Option<string>, backend: Backend)
    ensures CardsEscaped(Submit(form, env, backend).blocks)
  {
    if NewService(env).Success? {
      var run := RunDiagnostics(NewService(env).value, backend, BuildTelemetry(form));
      if run.result.Success? {
        ShowResultsEscaped(run.result.value);
      }
    }
  }

  lemma NoneLowerMessage()
    ensures FaultMessage(NoAttribute("NoneType", "lower")) == "'NoneType' object has no attribute 'lower'"
  {
    var a := "'" + "NoneType";
    assert a == "'NoneType";
    var b := a + "' object has no attribute '";
    assert b == "'NoneType' object has no attribute '";
    var c := b + "lower";
    assert c == "'NoneType' object has no attribute 'lower";
    assert c + "'" == "'NoneType' object has no attribute 'lower'";
  }

  /** A tweak whose safety level is JSON null reaches the page as an
      unhandled fault. */
  lemma NullSafetyIsUnhandled(response: DiagnosticResponse)
    requires response.tweaks != [] && response.tweaks[0].safety == Null
    ensures RenderFullResults(response).fault == Some(NoAttribute("NoneType", "lower"))
    ensures ErrorPair(Unhandled(FaultMessage(RenderFullResults(response).fault.value)))
            == (UnhandledCode, UnhandledPrefix + "'NoneType' object has no attribute 'lower'")
  {
    var out := RenderFullResults(response);
    assert !TweakRenderable(response.tweaks[0]);
    ResultsFault(response);
    assert out.fault.Some?;
    ResultsFirstFault(response);
    var i :| 0 <= i < |ShownTweaks(response.tweaks)|
             && RenderTweakCard(i, response.tweaks[i]) == Failure(out.fault.value)
             && (forall j :: 0 <= j < i ==> TweakRenderable(response.tweaks[j]));
    assert i == 0;
    NoneLowerMessage();
  }
}

=== FILE: diagnostics_service.dfy ===
/** The service layer: reads the key, validates the telemetry, makes the one
    adapter call and hydrates its answer, re-classifying errors on the way. */
module DiagnosticsService {
  import opened Results
  import opened Text
  import opened PyJson
  import opened Exceptions
  import opened Models
  import opened GeminiClient

  const KeyNotSetMessage := "GOOGLE_API_KEY environment variable is not set."
  const MissingFieldsMessage := "Missing arguments. Please fill in all required telemetry fields."
  const HydrationFailedPrefix := "Failed to hydrate domain models from payload: "

  datatype Service = Service(apiKey: string, repository: Repository)

  /** `DiagnosticsService()`, given the value of `GOOGLE_API_KEY` (`None`
      when the variable is unset). A blank key is refused before any adapter
      exists; otherwise both hold the stripped key. */
  function NewService(env: Option<string>): (r: Result<Service, DomainError>)
    ensures r.Success? <==> !Blank(env.GetOr(""))
    ensures r.Failure? ==> r.error == ConfigurationError(KeyNotSetMessage)
    ensures r.Success? ==> r.value.apiKey != [] && Trimmed(r.value.apiKey)
    ensures r.Success? ==> r.value.repository.apiKey == r.value.apiKey
  {
    var key := Strip(env.GetOr(""));
    if key == [] then Failure(ConfigurationError(KeyNotSetMessage))
    else
      match NewRepository(key)
      case Success(repository) => Success(Service(key, repository))
      case Failure(e) => Failure(e)
  }

  /** Surrounding whitespace around the key is ignored. */
  lemma NewServiceStripsKey(pre: string, key: string, post: string)
    requires Blank(pre) && Blank(post) && Trimmed(key) && key != []
    ensures NewService(Some(pre + key + post)) == Success(Service(key, Repository(key)))
  {
    StripPadded(pre, key, post);
  }

  /** Holds a character other than whitespace. */
  predicate HasText(s: string) {
    exists k :: 0 <= k < |s| && !IsSpace(s[k])
  }

  /** Python truthiness of an optional text. */
  predicate Present(o: Option<string>) {
    o.Some? && o.value != []
  }

  /** `_validate_telemetry`: `None` when the input passes. */
  function ValidateTelemetry(t: TelemetryInput): (r: Option<DomainError>)
    ensures r.None? <==> HasText(t.cpu) && HasText(t.gpu) && HasText(t.application) && Present(t.osName) && Present(t.storage)
    ensures r.Some? ==> r.value == ValidationError(MissingFieldsMessage)
  {
    if Strip(t.cpu) == [] || Strip(t.gpu) == [] || Strip(t.application) == [] || !Present(t.osName) || !Present(t.storage)
    then Some(ValidationError(MissingFieldsMessage))
    else None
  }

  /** `ram` and `symptoms` play no part in validation. */
  lemma ValidationIgnoresRamAndSymptoms(t: TelemetryInput, ram: string, symptoms: string)
    ensures ValidateTelemetry(t.(ram := ram, symptoms := symptoms)) == ValidateTelemetry(t)
  {
  }

  /** A whitespace-only choice of OS or storage is not blank to the
      validator: only the three typed fields are stripped. */
  lemma WhitespaceChoicesPass(t: TelemetryInput)
    requires HasText(t.cpu) && HasText(t.gpu) && HasText(t.application)
    requires t.osName == Some(" ") && t.storage == Some(" ")
    ensures ValidateTelemetry(t).None?
  {
  }

  /** The outcome of `run_diagnostics` and the adapter requests it made. */
  datatype Run = Run(result: Result<DiagnosticResponse, DomainError>, requests: seq<Request>)

  /** `DataParsingError(f"Failed to hydrate domain models from payload: {exc}")`. */
  function HydrationFailed(message: string): DomainError {
    DataParsingError(HydrationFailedPrefix + message)
  }

  /** `run_diagnostics(telemetry)`. */
  function RunDiagnostics(s: Service, backend: Backend, t: TelemetryInput): (run: Run)
    ensures ValidateTelemetry(t).Some? ==> run == Run(Failure(ValidateTelemetry(t).value), [])
    ensures ValidateTelemetry(t).None? ==> run.requests == [BuildRequest(backend.systemPrompt, FormatPrompt(t))]
    ensures run.result.Failure? && run.result.error.ValidationError? ==> run.requests == []
  {
    match ValidateTelemetry(t)
    case Some(e) => Run(Failure(e), [])
    case None =>
      var f := FetchDiagnosis(s.repository, backend, FormatPrompt(t));
      var result :=
        match f.outcome
        case Failure(ExternalServiceError(m)) => Failure(ExternalServiceError(m))
        case Failure(e) => Failure(HydrationFailed(e.message))
        case Success(payload) =>
          match Hydrate(payload)
          case Success(response) => Success(response)
          case Failure(fault) => Failure(HydrationFailed(FaultMessage(fault)));
      Run(result, [f.request])
  }

  /** The answer of the backend to the one request a valid run makes. */
  function Answer(backend: Backend, t: TelemetryInput): SdkOutcome {
    backend.generate(BuildRequest(backend.systemPrompt, FormatPrompt(t)))
  }

  /** A run succeeds exactly when the input is valid, the service answers
      with text that decodes, and the decoded value is hydratable; the
      response is then the hydration of that value. */
  lemma RunSucceeds(s: Service, backend: Backend, t: TelemetryInput)
    ensures var run := RunDiagnostics(s, backend, t);
            var o := Answer(backend, t);
            && (run.result.Success? <==>
                  ValidateTelemetry(t).None? && GotText(o) && backend.loads(o.text.value).Success?
                  && Hydratable(backend.loads(o.text.value).value))
            && (run.result.Success? ==> run.result.value == Hydrate(backend.loads(o.text.value).value).value)
  {
    var run := RunDiagnostics(s, backend, t);
    if ValidateTelemetry(t).None? {
      FetchClassification(s.repository, backend, FormatPrompt(t));
    }
  }

  /** Invalid input, and only invalid input, ends in a `ValidationError`;
      a run never reports a `ConfigurationError` (that one is raised before a
      service exists). */
  lemma RunValidationErrors(s: Service, backend: Backend, t: TelemetryInput)
    ensures var run := RunDiagnostics(s, backend, t);
            && (run.result.Failure? && run.result.error.ValidationError? <==> ValidateTelemetry(t).Some?)
            && (run.result.Failure? ==> !run.result.error.ConfigurationError?)
  {
  }

  /** An `ExternalServiceError` from the adapter passes through unchanged. */
  lemma RunPassesServiceErrors(s: Service, backend: Backend, t: TelemetryInput)
    requires ValidateTelemetry(t).None?
    requires var f := FetchDiagnosis(s.repository, backend, FormatPrompt(t));
             f.outcome.Failure? && f.outcome.error.ExternalServiceError?
    ensures RunDiagnostics(s, backend, t).result
         == Failure(FetchDiagnosis(s.repository, backend, FormatPrompt(t)).outcome.error)
  {
  }

  /** Any other adapter error, its own `DataParsingError` included, becomes
      a `DataParsingError` whose message wraps the original one. */
  lemma RunWrapsParseErrors(s: Service, backend: Backend, t: TelemetryInput)
    requires ValidateTelemetry(t).None?
    requires var f := FetchDiagnosis(s.repository, backend, FormatPrompt(t));
             f.outcome.Failure? && f.outcome.error.DataParsingError?
    ensures RunDiagnostics(s, backend, t).result
         == Failure(HydrationFailed(FetchDiagnosis(s.repository, backend, FormatPrompt(t)).outcome.error.message))
  {
  }

  /** A decoded payload that cannot be hydrated is reported as a
      `DataParsingError`: the hydration prefix followed by the text of the
      exception hydration raised. */
  lemma RunWrapsHydrationFaults(s: Service, backend: Backend, t: TelemetryInput)
    requires ValidateTelemetry(t).None?
    requires var f := FetchDiagnosis(s.repository, backend, FormatPrompt(t));
             f.outcome.Success? && !Hydratable(f.outcome.value)
    ensures var payload := FetchDiagnosis(s.repository, backend, FormatPrompt(t)).outcome.value;
            && Hydrate(payload).Failure?
            && RunDiagnostics(s, backend, t).result
               == Failure(DataParsingError(HydrationFailedPrefix + FaultMessage(Hydrate(payload).error)))
  {
  }

  /** Undecodable text is reported with both prefixes, the adapter's inside
      the service's. */
  lemma UndecodableTextDoubleWrapped(s: Service, backend: Backend, t: TelemetryInput, text: string, d: string)
    requires ValidateTelemetry(t).None?
    requires Answer(backend, t) == Returned(Some(text)) && text != []
    requires backend.loads(text) == Failure(d)
    ensures RunDiagnostics(s, backend, t).result == Failure(HydrationFailed(ParseFailedPrefix + d))
  {
    FetchMessages(s.repository, backend, FormatPrompt(t));
  }
}

=== FILE: exceptions.dfy ===
/** The application's closed error taxonomy: four domain error kinds, each
    carrying the message it was raised with. */
module Exceptions {

  datatype DomainError =
    | ConfigurationError(message: string)
    | ValidationError(message: string)
    | ExternalServiceError(message: string)
    | DataParsingError(message: string)

  /** `type(err).__name__`. */
  function ClassName(e: DomainError): string {
    match e
    case ConfigurationError(_) => "ConfigurationError"
    case ValidationError(_) => "ValidationError"
    case ExternalServiceError(_) => "ExternalServiceError"
    case DataParsingError(_) => "DataParsingError"
  }

  /** The class name and the message together identify the error: the
      boundary that shows only these two strings loses nothing. */
  lemma ClassNameAndMessageIdentify(a: DomainError, b: DomainError)
    ensures ClassName(a) == ClassName(b) && a.message == b.message <==> a == b
  {
    if ClassName(a) == ClassName(b) {
      assert a.ConfigurationError? == b.ConfigurationError?;
      assert a.ValidationError? == b.ValidationError?;
      assert a.ExternalServiceError? == b.ExternalServiceError?;
    }
  }
}

=== FILE: gemini_client.dfy ===
/** The reasoning-service adapter: one generation request per prompt, and
    the classification of whatever comes back into a JSON value or a domain
    error. The SDK call and the JSON decoder are parameters. */
module GeminiClient {
  import opened Results
  import opened PyJson
  import opened Exceptions

  const GeminiModel := "gemini-2.0-flash"
  const ResponseMimeType := "application/json"
  const Temperature: real := 0.3

  const KeyMissingMessage := "Gemini API key is required but was not provided."
  const GenerationFailedPrefix := "Gemini API generation failed: "
  const EmptyResponseMessage := "Gemini API returned an empty response."
  const ParseFailedPrefix := "Failed to parse Gemini response as JSON: "

  /** The arguments of one `generate_content` call. */
  datatype Request = Request(
    model: string,
    systemInstruction: string,
    responseMimeType: string,
    temperature: real,
    contents: string)

  /** What the SDK call does: raise (with the exception's text), or return a
      response whose text may be missing (`None`, or no response at all). */
  datatype SdkOutcome =
    | Raised(description: string)
    | Returned(text: Option<string>)

  /** Everything outside the program: the system instruction, the SDK call
      and `json.loads` (whose failure carries the decoder's message). */
  datatype Backend = Backend(
    systemPrompt: string,
    generate: Request -> SdkOutcome,
    loads: string -> Result<Json, string>)

  datatype Repository = Repository(apiKey: string)

  /** `GeminiDiagnosticsRepository(api_key)`: refuses an empty key. */
  function NewRepository(apiKey: string): (r: Result<Repository, DomainError>)
    ensures r.Success? <==> apiKey != []
    ensures r.Success? ==> r.value.apiKey == apiKey
    ensures r.Failure? ==> r.error == ExternalServiceError(KeyMissingMessage)
  {
    if apiKey == [] then Failure(ExternalServiceError(KeyMissingMessage))
    else Success(Repository(apiKey))
  }

  /** The request `fetch_diagnosis` sends: fixed model, instruction, MIME
      type and temperature; the prompt is the only part that varies. */
  function BuildRequest(systemPrompt: string, prompt: string): (q: Request)
    ensures q.contents == prompt
    ensures q.model == GeminiModel && q.responseMimeType == ResponseMimeType
    ensures q.temperature == Temperature && q.systemInstruction == systemPrompt
  {
    Request(GeminiModel, systemPrompt, ResponseMimeType, Temperature, prompt)
  }

  /** The result of one `fetch_diagnosis` call together with the request it
      made. */
  datatype Fetched = Fetched(outcome: Result<Json, DomainError>, request: Request)

  /** `fetch_diagnosis(prompt)`. */
  function FetchDiagnosis(repo: Repository, backend: Backend, prompt: string): (f: Fetched)
    ensures f.request == BuildRequest(backend.systemPrompt, prompt)
    ensures f.outcome.Failure? ==> f.outcome.error.ExternalServiceError? || f.outcome.error.DataParsingError?
  {
    var request := BuildRequest(backend.systemPrompt, prompt);
    var outcome :=
      match backend.generate(request)
      case Raised(d) => Failure(ExternalServiceError(GenerationFailedPrefix + d))
      case Returned(text) =>
        if text.None? || text.value == [] then Failure(ExternalServiceError(EmptyResponseMessage))
        else
          match backend.loads(text.value)
          case Failure(d) => Failure(DataParsingError(ParseFailedPrefix + d))
          case Success(j) => Success(j);
    Fetched(outcome, request)
  }

  /** The SDK produced a response with non-empty text. */
  predicate GotText(o: SdkOutcome) {
    o.Returned? && o.text.Some? && o.text.value != []
  }

  /** Which error kind each SDK outcome leads to: the service is blamed
      exactly when it raised or returned no text, the decoder exactly when
      text came back and did not parse; parsed JSON comes back unchanged,
      whatever its shape. */
  lemma FetchClassification(repo: Repository, backend: Backend, prompt: string)
    ensures var f := FetchDiagnosis(repo, backend, prompt);
            var o := backend.generate(f.request);
            && (f.outcome.Failure? && f.outcome.error.ExternalServiceError? <==> !GotText(o))
            && (f.outcome.Failure? && f.outcome.error.DataParsingError? <==> GotText(o) && backend.loads(o.text.value).Failure?)
            && (f.outcome.Success? <==> GotText(o) && backend.loads(o.text.value).Success?)
            && (f.outcome.Success? ==> f.outcome.value == backend.loads(o.text.value).value)
  {
  }

  /** The error messages, one per outcome, carrying the underlying text. */
  lemma FetchMessages(repo: Repository, backend: Backend, prompt: string)
    ensures var f := FetchDiagnosis(repo, backend, prompt);
            var o := backend.generate(f.request);
            && (o.Raised? ==> f.outcome == Failure(ExternalServiceError(GenerationFailedPrefix + o.description)))
            && (o.Returned? && !GotText(o) ==> f.outcome == Failure(ExternalServiceError(EmptyResponseMessage)))
            && (GotText(o) && backend.loads(o.text.value).Failure? ==>
                  f.outcome == Failure(DataParsingError(ParseFailedPrefix + backend.loads(o.text.value).error)))
  {
  }

  /** The two service failures can be told apart by their message alone:
      no description of a raised exception makes the generation-failure
      message read like the empty-response message. */
  lemma ServiceMessagesDistinct(d: string)
    ensures GenerationFailedPrefix + d != EmptyResponseMessage
  {
    assert (GenerationFailedPrefix + d)[11] == 'g';
    assert EmptyResponseMessage[11] == 'r';
  }

  /** The empty-response message is reported exactly when the SDK returned
      without text; a raised exception is never mistaken for it. */
  lemma EmptyResponseBlame(repo: Repository, backend: Backend, prompt: string)
    ensures var f := FetchDiagnosis(repo, backend, prompt);
            var o := backend.generate(f.request);
            f.outcome == Failure(ExternalServiceError(EmptyResponseMessage)) <==> o.Returned? && !GotText(o)
  {
    var f := FetchDiagnosis(repo, backend, prompt);
    var o := backend.generate(f.request);
    FetchMessages(repo, backend, prompt);
    if o.Raised? {
      ServiceMessagesDistinct(o.description);
    }
  }
}

=== FILE: models.dfy ===
/** The domain model: the telemetry a user submits, the prompt built from
    it, the typed diagnosis records and their hydration from the untrusted
    JSON the reasoning service returns. */
module Models {
  import opened Results
  import opened Text
  import opened PyJson

  /** `int(value)`, or 0 when `int()` raises `TypeError` (null, lists,
      dicts) or `ValueError` (text that is not an integer literal, or one
      with more than `MaxStrDigits` digits). */
  function SafeInt(value: Json): (r: int)
    ensures value.Bool? ==> r == (if value.b then 1 else 0)
    ensures value.Null? || value.Array? || value.Object? ==> r == 0
  {
    match value
    case Int(n) => n
    case Bool(b) => if b then 1 else 0
    case String(s) => ParseIntLiteral(s).GetOr(0)
    case _ => 0
  }

  /** An integer and its `str()` text coerce to the same value (beyond the
      digit limit `str()` itself raises). */
  lemma SafeIntOfIntText(n: int)
    requires FitsStrDigits(n)
    ensures SafeInt(String(Str(Int(n)))) == SafeInt(Int(n)) == n
  {
    assert Str(Int(n)) == IntText(n);
    ParseIntText(n, [], []);
    assert [] + IntText(n) + [] == IntText(n);
  }

  /** Integer text within the digit limit, padded with any whitespace
      `int()` skips, coerces to its value. */
  lemma SafeIntOfText(n: int, pre: string, post: string)
    requires IntBlank(pre) && IntBlank(post) && FitsStrDigits(n)
    ensures SafeInt(String(pre + IntText(n) + post)) == n
  {
    ParseIntText(n, pre, post);
  }

  /** A digit run longer than the limit makes `int()` raise, so it
      coerces to the default 0. */
  lemma SafeIntOfLongText(pre: string, digits: string, post: string)
    requires Blank(pre) && Blank(post)
    requires AllDigits(digits) && |digits| > MaxStrDigits
    ensures SafeInt(String(pre + digits + post)) == 0
  {
    ParseIntTooLong(pre, digits, post);
  }

  /** Text with a character that cannot belong to an integer literal, the
      separators U+001C to U+001F included, coerces to the default 0. */
  lemma SafeIntOfNonNumericText(s: string, k: nat)
    requires k < |s| && !IntSpace(s[k]) && !IsDigit(s[k]) && s[k] != '+' && s[k] != '-'
    ensures SafeInt(String(s)) == 0
  {
    ParseIntRejects(s, k);
  }

  /** `max(lo, min(hi, value))`. */
  function Clamp(value: int, lo: int, hi: int): (r: int)
    ensures lo <= hi ==> lo <= r <= hi
    ensures lo <= value <= hi ==> r == value
    ensures lo <= hi && value < lo ==> r == lo
    ensures lo <= hi && value > hi ==> r == hi
    ensures hi < lo ==> r == lo
  {
    var m := if hi < value then hi else value;
    if lo > m then lo else m
  }

  /** One form submission. `storage` and `osName` come from select boxes
      that start with nothing selected, hence `None` is possible. */
  datatype TelemetryInput = TelemetryInput(
    cpu: string,
    gpu: string,
    ram: string,
    storage: Option<string>,
    osName: Option<string>,
    application: string,
    symptoms: string)

  /** An f-string placeholder for a `str` or `None`. */
  function Shown(o: Option<string>): string {
    match o
    case Some(s) => s
    case None => "None"
  }

  /** The fixed part of the prompt: headings, captions and newlines. */
  const PromptFrame := 126

  /** The Markdown prompt handed to the reasoning service: the seven fields
      in a fixed frame that opens with the specs heading and closes with a
      newline. */
  function FormatPrompt(t: TelemetryInput): (r: string)
    ensures |r| == PromptFrame + |t.cpu| + |t.gpu| + |t.ram| + |Shown(t.storage)|
                   + |Shown(t.osName)| + |t.application| + |t.symptoms|
    ensures "## System Specs\n" <= r
    ensures r[|r| - 1] == '\n'
  {
    var r := "## System Specs\n" + ("- **CPU**: " + (t.cpu + ("\n" + ("- **GPU**: " + (t.gpu + ("\n"
      + ("- **RAM**: " + (t.ram + ("\n" + ("- **Storage**: " + (Shown(t.storage) + ("\n"
      + ("- **OS**: " + (Shown(t.osName) + ("\n\n" + ("## Target Application\n" + (t.application + ("\n\n"
      + ("## Reported Symptoms\n" + (t.symptoms + "\n"))))))))))))))))))));
    assert |r| == PromptFrame + |t.cpu| + |t.gpu| + |t.ram| + |Shown(t.storage)|
                  + |Shown(t.osName)| + |t.application| + |t.symptoms|;
    r
  }

  /** `s` minus the literal prefix `lit`, if `s` starts with it. */
  function Expect(lit: string, s: string): Option<string> {
    if lit <= s then Some(s[|lit|..]) else None
  }

  /** The text before the first newline of `s`, and what follows that
      newline. */
  function LineAt(s: string): Option<(string, string)>
    decreases |s|
  {
    if s == [] then None
    else if s[0] == '\n' then Some(([], s[1..]))
    else
      match LineAt(s[1..])
      case None => None
      case Some(p) => Some(([s[0]] + p.0, p.1))
  }

  /** A labelled line: the text after `caption` up to the newline, and what
      follows that newline. */
  function ReadField(caption: string, s: string): Option<(string, string)> {
    var r :- Expect(caption, s);
    LineAt(r)
  }

  /** The two trailing sections: the application line, then the symptoms
      text, which runs to the final newline and may span lines. */
  function ParseSections(s: string): Option<(string, string)> {
    var r0 :- Expect("\n", s);
    var r1 :- Expect("## Target Application\n", r0);
    var app :- LineAt(r1);
    var r2 :- Expect("\n", app.1);
    var r3 :- Expect("## Reported Symptoms\n", r2);
    if r3 != [] && r3[|r3| - 1] == '\n' then Some((app.0, r3[..|r3| - 1])) else None
  }

  /** Reads a prompt back into the telemetry it was built from. */
  function ParsePrompt(p: string): Option<TelemetryInput> {
    var r0 :- Expect("## System Specs\n", p);
    var cpu :- ReadField("- **CPU**: ", r0);
    var gpu :- ReadField("- **GPU**: ", cpu.1);
    var ram :- ReadField("- **RAM**: ", gpu.1);
    var storage :- ReadField("- **Storage**: ", ram.1);
    var os :- ReadField("- **OS**: ", storage.1);
    var sections :- ParseSections(os.1);
    Some(TelemetryInput(cpu.0, gpu.0, ram.0, Some(storage.0), Some(os.0), sections.0, sections.1))
  }

  lemma {:induction false} LineAtOf(line: string, tail: string)
    requires '\n' !in line && tail != [] && tail[0] == '\n'
    ensures LineAt(line + tail) == Some((line, tail[1..]))
    decreases |line|
  {
    if line == [] {
      assert line + tail == tail;
    } else {
      assert (line + tail)[1..] == line[1..] + tail;
      LineAtOf(line[1..], tail);
      assert [line[0]] + line[1..] == line;
    }
  }

  lemma ExpectOf(lit: string, rest: string)
    ensures Expect(lit, lit + rest) == Some(rest)
  {
  }

  lemma ReadFieldOf(caption: string, value: string, tail: string)
    requires '\n' !in value && tail != [] && tail[0] == '\n'
    ensures ReadField(caption, caption + (value + tail)) == Some((value, tail[1..]))
  {
    ExpectOf(caption, value + tail);
    LineAtOf(value, tail);
  }

  lemma SectionsOf(app: string, symptoms: string)
    requires '\n' !in app
    ensures ParseSections("\n" + ("## Target Application\n" + (app + ("\n\n" + ("## Reported Symptoms\n" + (symptoms + "\n"))))))
         == Some((app, symptoms))
  {
    var u2 := "## Reported Symptoms\n" + (symptoms + "\n");
    var u1 := "\n\n" + u2;
    var u0 := "## Target Application\n" + (app + u1);
    ExpectOf("\n", u0);
    ExpectOf("## Target Application\n", app + u1);
    LineAtOf(app, u1);
    assert u1[1..] == "\n" + u2;
    ExpectOf("\n", u2);
    ExpectOf("## Reported Symptoms\n", symptoms + "\n");
    assert (symptoms + "\n")[..|symptoms|] == symptoms;
  }

  /** Fields a single-line form input can hold. */
  predicate SingleLine(s: string) {
    '\n' !in s
  }

  /** The prompt loses nothing: for a telemetry whose one-line fields hold
      no newline and whose selections are made, the prompt reads back to
      exactly that telemetry, so distinct submissions give distinct
      prompts. */
  lemma PromptRoundTrip(t: TelemetryInput)
    requires SingleLine(t.cpu) && SingleLine(t.gpu) && SingleLine(t.ram) && SingleLine(t.application)
    requires t.storage.Some? && SingleLine(t.storage.value)
    requires t.osName.Some? && SingleLine(t.osName.value)
    ensures ParsePrompt(FormatPrompt(t)) == Some(t)
  {
    var st := t.storage.value;
    var os := t.osName.value;
    var u6 := "\n## Target Application\n" + (t.application + ("\n\n" + ("## Reported Symptoms\n" + (t.symptoms + "\n"))));
    var u5 := "\n\n" + ("## Target Application\n" + (t.application + ("\n\n" + ("## Reported Symptoms\n" + (t.symptoms + "\n")))));
    var u4 := "- **OS**: " + (os + u5);
    var u3 := "- **Storage**: " + (st + ("\n" + u4));
    var u2 := "- **RAM**: " + (t.ram + ("\n" + u3));
    var u1 := "- **GPU**: " + (t.gpu + ("\n" + u2));
    var u0 := "- **CPU**: " + (t.cpu + ("\n" + u1));
    ExpectOf("## System Specs\n", u0);
    ReadFieldOf("- **CPU**: ", t.cpu, "\n" + u1);
    ReadFieldOf("- **GPU**: ", t.gpu, "\n" + u2);
    ReadFieldOf("- **RAM**: ", t.ram, "\n" + u3);
    ReadFieldOf("- **Storage**: ", st, "\n" + u4);
    ReadFieldOf("- **OS**: ", os, u5);
    SectionsTail(t.application, t.symptoms);
    SectionsOf(t.application, t.symptoms);
  }

  lemma SectionsTail(app: string, symptoms: string)
    ensures ("\n\n" + ("## Target Application\n" + (app + ("\n\n" + ("## Reported Symptoms\n" + (symptoms + "\n"))))))[1..]
         == "\n" + ("## Target Application\n" + (app + ("\n\n" + ("## Reported Symptoms\n" + (symptoms + "\n")))))
  {
  }

  /** The primary determination of the bottleneck. `secondaryBottleneck`
      is whatever the payload held (`Null` for Python's `None`). */
  datatype Diagnosis = Diagnosis(
    bottleneckType: string,
    severity: int,
    plainEnglish: string,
    reasoning: string,
    secondaryBottleneck: Json)

  datatype Compatibility = Compatibility(score: int, note: string)

  /** A recommended change. Its fields are passed through from the payload
      without coercion, so each is a JSON value. */
  datatype Tweak = Tweak(
    title: Json,
    kind: Json,
    safety: Json,
    steps: Json,
    rationale: Json,
    commands: Json,
    revert: Json)

  datatype DoNotDo = DoNotDo(action: Json, reason: Json)

  datatype DiagnosticResponse = DiagnosticResponse(
    diagnosis: Diagnosis,
    compatibility: Option<Compatibility>,
    tweaks: seq<Tweak>,
    doNotDo: seq<DoNotDo>)

  /** The documented ranges of the two integer fields. */
  predicate InRange(r: DiagnosticResponse) {
    && 0 <= r.diagnosis.severity <= 10
    && (r.compatibility.Some? ==> 0 <= r.compatibility.value.score <= 100)
  }

  /** `_clamp(_safe_int(v), 0, 10)`. */
  function SeverityOf(v: Json): int {
    Clamp(SafeInt(v), 0, 10)
  }

  /** `_clamp(_safe_int(v), 0, 100)`. */
  function ScoreOf(v: Json): int {
    Clamp(SafeInt(v), 0, 100)
  }

  /** The `diagnosis` dict: each text field is `str()` of the stored value
      or of its default, the severity is the stored value coerced and
      clamped to 0..10, and the secondary bottleneck is passed through. */
  function HydrateDiagnosis(d: Json): (r: Result<Diagnosis, PyFault>)
    ensures r.Success? <==> d.Object?
    ensures r.Success? ==> 0 <= r.value.severity <= 10
    ensures !d.Object? ==> r == Failure(NoAttribute(TypeName(d), "get"))
    ensures r.Success? && d.Object? ==>
              && CoercedFrom(d.fields, "bottleneck_type", r.value.bottleneckType, String("Unknown"), Str)
              && CoercedFrom(d.fields, "severity", r.value.severity, Int(0), SeverityOf)
              && CoercedFrom(d.fields, "plain_english", r.value.plainEnglish, String(""), Str)
              && CoercedFrom(d.fields, "reasoning", r.value.reasoning, String(""), Str)
              && StoredOrDefault(d.fields, "secondary_bottleneck", r.value.secondaryBottleneck, Null)
  {
    if !d.Object? then Failure(NoAttribute(TypeName(d), "get"))
    else
      GetStoredOrDefault(d.fields, "bottleneck_type", String("Unknown"));
      GetStoredOrDefault(d.fields, "severity", Int(0));
      GetStoredOrDefault(d.fields, "plain_english", String(""));
      GetStoredOrDefault(d.fields, "reasoning", String(""));
      GetStoredOrDefault(d.fields, "secondary_bottleneck", Null);
      Success(Diagnosis(
        bottleneckType := Str(Get(d.fields, "bottleneck_type", String("Unknown"))),
        severity := SeverityOf(Get(d.fields, "severity", Int(0))),
        plainEnglish := Str(Get(d.fields, "plain_english", String(""))),
        reasoning := Str(Get(d.fields, "reasoning", String(""))),
        secondaryBottleneck := Get(d.fields, "secondary_bottleneck", Null)))
  }

  /** `Compatibility(...) if value else None`: the score is the stored
      value coerced and clamped to 0..100, the note `str()` of the stored
      value or of "". */
  function HydrateCompatibility(c: Json): (r: Result<Option<Compatibility>, PyFault>)
    ensures r.Success? <==> !Truthy(c) || c.Object?
    ensures r.Success? ==> (r.value.None? <==> !Truthy(c))
    ensures r.Success? && r.value.Some? ==> 0 <= r.value.value.score <= 100
    ensures Truthy(c) && !c.Object? ==> r == Failure(NoAttribute(TypeName(c), "get"))
    ensures r.Success? && r.value.Some? && c.Object? ==>
              && CoercedFrom(c.fields, "score", r.value.value.score, Int(0), ScoreOf)
              && CoercedFrom(c.fields, "note", r.value.value.note, String(""), Str)
  {
    if !Truthy(c) then Success(None)
    else if !c.Object? then Failure(NoAttribute(TypeName(c), "get"))
    else
      GetStoredOrDefault(c.fields, "score", Int(0));
      GetStoredOrDefault(c.fields, "note", String(""));
      Success(Some(Compatibility(
        score := ScoreOf(Get(c.fields, "score", Int(0))),
        note := Str(Get(c.fields, "note", String(""))))))
  }

  /** One element of `optimization_tweaks`: each field is the value stored
      under its key, or the default when the key is absent. */
  function TweakOf(t: seq<(string, Json)>): (r: Tweak)
    ensures StoredOrDefault(t, "title", r.title, String(""))
    ensures StoredOrDefault(t, "type", r.kind, String(""))
    ensures StoredOrDefault(t, "safety", r.safety, String(""))
    ensures StoredOrDefault(t, "steps", r.steps, Array([]))
    ensures StoredOrDefault(t, "rationale", r.rationale, String(""))
    ensures StoredOrDefault(t, "commands", r.commands, Array([]))
    ensures StoredOrDefault(t, "revert", r.revert, String(""))
  {
    GetStoredOrDefault(t, "title", String(""));
    GetStoredOrDefault(t, "type", String(""));
    GetStoredOrDefault(t, "safety", String(""));
    GetStoredOrDefault(t, "steps", Array([]));
    GetStoredOrDefault(t, "rationale", String(""));
    GetStoredOrDefault(t, "commands", Array([]));
    GetStoredOrDefault(t, "revert", String(""));
    Tweak(
      title := Get(t, "title", String("")),
      kind := Get(t, "type", String("")),
      safety := Get(t, "safety", String("")),
      steps := Get(t, "steps", Array([])),
      rationale := Get(t, "rationale", String("")),
      commands := Get(t, "commands", Array([])),
      revert := Get(t, "revert", String("")))
  }

  /** One element of `do_not_do`: each field is the value stored under its
      key, or empty text when the key is absent. */
  function DoNotDoOf(w: seq<(string, Json)>): (r: DoNotDo)
    ensures StoredOrDefault(w, "action", r.action, String(""))
    ensures StoredOrDefault(w, "reason", r.reason, String(""))
  {
    GetStoredOrDefault(w, "action", String(""));
    GetStoredOrDefault(w, "reason", String(""));
    DoNotDo(action := Get(w, "action", String("")), reason := Get(w, "reason", String("")))
  }

  /** A tweak element without any of the seven keys gets the documented
      defaults: empty text, and empty lists for the steps and commands. */
  lemma TweakDefaults(t: seq<(string, Json)>)
    requires forall i :: 0 <= i < |t| ==> t[i].0 !in {"title", "type", "safety", "steps", "rationale", "commands", "revert"}
    ensures TweakOf(t) == Tweak(String(""), String(""), String(""), Array([]), String(""), Array([]), String(""))
  {
    LookupFinds(t, "title");
    LookupFinds(t, "type");
    LookupFinds(t, "safety");
    LookupFinds(t, "steps");
    LookupFinds(t, "rationale");
    LookupFinds(t, "commands");
    LookupFinds(t, "revert");
  }

  /** A warning element without `action` or `reason` shows empty text. */
  lemma DoNotDoDefaults(w: seq<(string, Json)>)
    requires forall i :: 0 <= i < |w| ==> w[i].0 != "action" && w[i].0 != "reason"
    ensures DoNotDoOf(w) == DoNotDo(String(""), String(""))
  {
    LookupFinds(w, "action");
    LookupFinds(w, "reason");
  }

  /** Index of the first element that is not a dict. */
  predicate FirstNonObject(items: seq<Json>, i: int) {
    0 <= i < |items| && !items[i].Object? && forall m :: 0 <= m < i ==> items[m].Object?
  }

  /** The loop that builds one record per element with `element.get(...)`:
      it keeps length and order, and stops at the first element that is not
      a dict. */
  function HydrateAll<T>(items: seq<Json>, build: seq<(string, Json)> -> T): (r: Result<seq<T>, PyFault>)
    ensures r.Success? <==> forall i :: 0 <= i < |items| ==> items[i].Object?
    ensures r.Success? ==> |r.value| == |items|
    ensures r.Success? ==> forall i :: 0 <= i < |items| ==> r.value[i] == build(items[i].fields)
    ensures r.Failure? ==> exists i :: FirstNonObject(items, i) && r.error == NoAttribute(TypeName(items[i]), "get")
    decreases |items|
  {
    if items == [] then Success([])
    else if !items[0].Object? then
      assert FirstNonObject(items, 0);
      Failure(NoAttribute(TypeName(items[0]), "get"))
    else
      match HydrateAll(items[1..], build)
      case Failure(e) =>
        ghost var i :| FirstNonObject(items[1..], i) && e == NoAttribute(TypeName(items[1..][i]), "get");
        assert FirstNonObject(items, i + 1);
        Failure(e)
      case Success(rest) =>
        Success([build(items[0].fields)] + rest)
  }

  /** Values a `for` loop of dict elements accepts: a list of dicts, or a
      string or dict with nothing to iterate. */
  predicate ObjectList(v: Json) {
    || (v.Array? && forall i :: 0 <= i < |v.items| ==> v.items[i].Object?)
    || v == String([])
    || v == Object([])
  }

  /** `[build(e) for e in v]` over a list field: one record per element,
      in order; the empty string or dict give none. */
  function HydrateList<T>(v: Json, build: seq<(string, Json)> -> T): (r: Result<seq<T>, PyFault>)
    ensures r.Success? <==> ObjectList(v)
    ensures v.Array? && r.Success? ==>
              && |r.value| == |v.items|
              && forall i :: 0 <= i < |v.items| ==> r.value[i] == build(v.items[i].fields)
    ensures !v.Array? && r.Success? ==> r.value == []
  {
    var items :- Iterate(v);
    HydrateAll(items, build)
  }

  /** The payload shapes `from_dict` handles without raising. */
  predicate Hydratable(data: Json) {
    && data.Object?
    && Get(data.fields, "diagnosis", Object([])).Object?
    && (Truthy(Get(data.fields, "compatibility", Null)) ==> Get(data.fields, "compatibility", Null).Object?)
    && ObjectList(Get(data.fields, "tweaks", Array([])))
    && ObjectList(Get(data.fields, "do_not_do", Array([])))
  }

  /** `DiagnosticResponse.from_dict`: succeeds exactly on the hydratable
      shapes, and whatever it produces has its integers in range. */
  function Hydrate(data: Json): (r: Result<DiagnosticResponse, PyFault>)
    ensures r.Success? <==> Hydratable(data)
    ensures r.Success? ==> InRange(r.value)
    ensures r.Success? ==> (r.value.compatibility.None? <==> !Truthy(Get(data.fields, "compatibility", Null)))
  {
    if !data.Object? then Failure(NoAttribute(TypeName(data), "get"))
    else
      var diagnosis :- HydrateDiagnosis(Get(data.fields, "diagnosis", Object([])));
      var compatibility :- HydrateCompatibility(Get(data.fields, "compatibility", Null));
      var tweaks :- HydrateList(Get(data.fields, "tweaks", Array([])), TweakOf);
      var doNotDo :- HydrateList(Get(data.fields, "do_not_do", Array([])), DoNotDoOf);
      Success(DiagnosticResponse(diagnosis, compatibility, tweaks, doNotDo))
  }

  /** What `from_dict` builds from a hydratable payload, section by
      section: each record is hydrated from the value stored under its key
      (or the key's default), and the tweak and warning lists have one
      record per element of the stored list, in order. */
  lemma HydrateParts(data: Json)
    requires Hydratable(data)
    ensures var r := Hydrate(data).value;
            var dv := Get(data.fields, "diagnosis", Object([]));
            var cv := Get(data.fields, "compatibility", Null);
            && StoredOrDefault(data.fields, "diagnosis", dv, Object([]))
            && StoredOrDefault(data.fields, "compatibility", cv, Null)
            && r.diagnosis == HydrateDiagnosis(dv).value
            && r.compatibility == HydrateCompatibility(cv).value
  {
    GetStoredOrDefault(data.fields, "diagnosis", Object([]));
    GetStoredOrDefault(data.fields, "compatibility", Null);
  }

  /** The tweak and warning lists of a hydrated payload keep the stored
      lists' length and order: element `i` is built from the dict at
      position `i`. */
  lemma HydrateKeepsLists(data: Json)
    requires Hydratable(data)
    ensures var r := Hydrate(data).value;
            var tv := Get(data.fields, "tweaks", Array([]));
            && StoredOrDefault(data.fields, "tweaks", tv, Array([]))
            && (tv.Array? ==> |r.tweaks| == |tv.items|
                              && forall i :: 0 <= i < |tv.items| ==> r.tweaks[i] == TweakOf(tv.items[i].fields))
            && (!tv.Array? ==> r.tweaks == [])
    ensures var r := Hydrate(data).value;
            var wv := Get(data.fields, "do_not_do", Array([]));
            && StoredOrDefault(data.fields, "do_not_do", wv, Array([]))
            && (wv.Array? ==> |r.doNotDo| == |wv.items|
                              && forall i :: 0 <= i < |wv.items| ==> r.doNotDo[i] == DoNotDoOf(wv.items[i].fields))
            && (!wv.Array? ==> r.doNotDo == [])
  {
    GetStoredOrDefault(data.fields, "tweaks", Array([]));
    GetStoredOrDefault(data.fields, "do_not_do", Array([]));
  }

  /** What hydrating a payload without any of the expected keys yields. */
  const DefaultResponse := DiagnosticResponse(Diagnosis("Unknown", 0, "", "", Null), None, [], [])

  /** A dict with none of the four top-level keys hydrates to the documented
      defaults and never raises. */
  lemma HydrateWithoutKnownKeys(fields: seq<(string, Json)>)
    requires forall i :: 0 <= i < |fields| ==> fields[i].0 !in {"diagnosis", "compatibility", "tweaks", "do_not_do"}
    ensures Hydrate(Object(fields)) == Success(DefaultResponse)
  {
    LookupFinds(fields, "diagnosis");
    LookupFinds(fields, "compatibility");
    LookupFinds(fields, "tweaks");
    LookupFinds(fields, "do_not_do");
  }

  /** "Unknown" stands for a missing `bottleneck_type` only: any present
      value goes through `str()`, so it yields "Unknown" only when it is that
      very text, and JSON null becomes "None". */
  lemma BottleneckDefault(d: seq<(string, Json)>)
    ensures HydrateDiagnosis(Object(d)).value.bottleneckType == "Unknown"
        <==> (!HasKey(d, "bottleneck_type") || Lookup(d, "bottleneck_type") == Some(String("Unknown")))
    ensures Lookup(d, "bottleneck_type") == Some(Null) ==> HydrateDiagnosis(Object(d)).value.bottleneckType == "None"
  {
    var o := Lookup(d, "bottleneck_type");
    LookupFinds(d, "bottleneck_type");
    var v := o.GetOr(String("Unknown"));
    assert HydrateDiagnosis(Object(d)).value.bottleneckType == Str(v);
    StrUnknown(v);
  }

  /** Only the text "Unknown" itself has `str()` equal to "Unknown": any
      other value's `str()` is another text or starts the way a `repr`
      does. */
  lemma StrUnknown(j: Json)
    ensures Str(j) == "Unknown" <==> j == String("Unknown")
  {
    if !j.String? {
      var text := Str(j);
      assert text != [] && ReprLead(text[0]);
      assert !ReprLead("Unknown"[0]);
    }
  }


  /** The JSON the system instruction asks the reasoning service for, as
      produced from a response: the schema `from_dict` reads. */
  function DiagnosisJson(d: Diagnosis): Json {
    Object([
      ("bottleneck_type", String(d.bottleneckType)),
      ("severity", Int(d.severity)),
      ("plain_english", String(d.plainEnglish)),
      ("reasoning", String(d.reasoning)),
      ("secondary_bottleneck", d.secondaryBottleneck)])
  }

  function CompatibilityJson(c: Option<Compatibility>): Json {
    match c
    case None => Null
    case Some(v) => Object([("score", Int(v.score)), ("note", String(v.note))])
  }

  function TweakJson(t: Tweak): Json {
    Object([
      ("title", t.title),
      ("type", t.kind),
      ("safety", t.safety),
      ("steps", t.steps),
      ("rationale", t.rationale),
      ("commands", t.commands),
      ("revert", t.revert)])
  }

  function DoNotDoJson(w: DoNotDo): Json {
    Object([("action", w.action), ("reason", w.reason)])
  }

  function ResponseJson(r: DiagnosticResponse): Json {
    Object([
      ("diagnosis", DiagnosisJson(r.diagnosis)),
      ("compatibility", CompatibilityJson(r.compatibility)),
      ("tweaks", TweaksJson(r.tweaks)),
      ("do_not_do", WarningsJson(r.doNotDo))])
  }

  function TweaksJson(ts: seq<Tweak>): Json {
    Array(seq(|ts|, i requires 0 <= i < |ts| => TweakJson(ts[i])))
  }

  function WarningsJson(ws: seq<DoNotDo>): Json {
    Array(seq(|ws|, i requires 0 <= i < |ws| => DoNotDoJson(ws[i])))
  }

  lemma TweakRoundTrip(t: Tweak)
    ensures TweakOf(TweakJson(t).fields) == t
  {
    var f := [("title", t.title), ("type", t.kind), ("safety", t.safety), ("steps", t.steps),
              ("rationale", t.rationale), ("commands", t.commands), ("revert", t.revert)];
    assert TweakJson(t).fields == f;
    LookupAt(f, 0);
    assert f[0].0 != "type";
    LookupAt(f, 1);
    assert f[0].0 != "safety";
    assert f[1].0 != "safety";
    LookupAt(f, 2);
    assert f[0].0 != "steps";
    assert f[1].0 != "steps";
    assert f[2].0 != "steps";
    LookupAt(f, 3);
    assert f[0].0 != "rationale";
    assert f[1].0 != "rationale";
    assert f[2].0 != "rationale";
    assert f[3].0 != "rationale";
    LookupAt(f, 4);
    assert f[0].0 != "commands";
    assert f[1].0 != "commands";
    assert f[2].0 != "commands";
    assert f[3].0 != "commands";
    assert f[4].0 != "commands";
    LookupAt(f, 5);
    assert f[0].0 != "revert";
    assert f[1].0 != "revert";
    assert f[2].0 != "revert";
    assert f[3].0 != "revert";
    assert f[4].0 != "revert";
    assert f[5].0 != "revert";
    LookupAt(f, 6);
  }

  lemma DoNotDoRoundTrip(w: DoNotDo)
    ensures DoNotDoOf(DoNotDoJson(w).fields) == w
  {
    var f := DoNotDoJson(w).fields;
    LookupAt(f, 0);
    assert f[0].0 != "reason";
    LookupAt(f, 1);
  }

  lemma DiagnosisRoundTrip(d: Diagnosis)
    requires 0 <= d.severity <= 10
    ensures HydrateDiagnosis(DiagnosisJson(d)) == Success(d)
  {
    var f := [("bottleneck_type", String(d.bottleneckType)), ("severity", Int(d.severity)),
              ("plain_english", String(d.plainEnglish)), ("reasoning", String(d.reasoning)),
              ("secondary_bottleneck", d.secondaryBottleneck)];
    assert DiagnosisJson(d).fields == f;
    LookupAt(f, 0);
    assert f[0].0 != "severity";
    LookupAt(f, 1);
    assert f[0].0 != "plain_english";
    assert f[1].0 != "plain_english";
    LookupAt(f, 2);
    assert f[0].0 != "reasoning";
    assert f[1].0 != "reasoning";
    assert f[2].0 != "reasoning";
    LookupAt(f, 3);
    assert f[0].0 != "secondary_bottleneck";
    assert f[1].0 != "secondary_bottleneck";
    assert f[2].0 != "secondary_bottleneck";
    assert f[3].0 != "secondary_bottleneck";
    LookupAt(f, 4);
  }

  lemma CompatibilityRoundTrip(c: Option<Compatibility>)
    requires c.Some? ==> 0 <= c.value.score <= 100
    ensures HydrateCompatibility(CompatibilityJson(c)) == Success(c)
  {
    if c.Some? {
      var f := [("score", Int(c.value.score)), ("note", String(c.value.note))];
      assert CompatibilityJson(c).fields == f;
      LookupAt(f, 0);
      assert f[0].0 != "note";
      LookupAt(f, 1);
    }
  }

  /** Hydration loses nothing: every response whose integers lie in their
      ranges is hydrated back from its own JSON, tweak and warning fields
      passed through unchanged, lengths and order kept. Together with the
      range guarantee of `Hydrate`, the responses it can produce are exactly
      the in-range ones. */
  lemma HydrateRoundTrip(r: DiagnosticResponse)
    requires InRange(r)
    ensures Hydrate(ResponseJson(r)) == Success(r)
  {
    var j := ResponseJson(r);
    var f := j.fields;
    assert f[0].0 == "diagnosis" && f[1].0 == "compatibility" && f[2].0 == "tweaks" && f[3].0 == "do_not_do";
    LookupAt(f, 0);
    assert f[0].0 != "compatibility";
    LookupAt(f, 1);
    assert f[0].0 != "tweaks";
    assert f[1].0 != "tweaks";
    LookupAt(f, 2);
    assert f[0].0 != "do_not_do";
    assert f[1].0 != "do_not_do";
    assert f[2].0 != "do_not_do";
    LookupAt(f, 3);
    DiagnosisRoundTrip(r.diagnosis);
    CompatibilityRoundTrip(r.compatibility);
    TweaksRoundTrip(r.tweaks);
    WarningsRoundTrip(r.doNotDo);
  }

  lemma TweaksRoundTrip(ts: seq<Tweak>)
    ensures HydrateList(TweaksJson(ts), TweakOf) == Success(ts)
  {
    var v := TweaksJson(ts);
    forall i | 0 <= i < |ts|
      ensures TweakOf(v.items[i].fields) == ts[i]
    {
      TweakRoundTrip(ts[i]);
    }
    assert HydrateList(v, TweakOf).value == ts;
  }

  lemma WarningsRoundTrip(ws: seq<DoNotDo>)
    ensures HydrateList(WarningsJson(ws), DoNotDoOf) == Success(ws)
  {
    var v := WarningsJson(ws);
    forall i | 0 <= i < |ws|
      ensures DoNotDoOf(v.items[i].fields) == ws[i]
    {
      DoNotDoRoundTrip(ws[i]);
    }
    assert HydrateList(v, DoNotDoOf).value == ws;
  }

  /** Out-of-range and non-numeric severities are pulled into 0..10. */
  lemma SeverityExamples()
    ensures HydrateDiagnosis(Object([("severity", Int(99))])).value.severity == 10
    ensures HydrateDiagnosis(Object([("severity", Int(-5))])).value.severity == 0
  {
  }

  /** Text severities are read as integer literals, and anything else counts
      as zero. */
  lemma SeverityTextExamples()
    ensures HydrateDiagnosis(Object([("severity", String(" 7 "))])).value.severity == 7
    ensures HydrateDiagnosis(Object([("severity", String("abc"))])).value.severity == 0
  {
    SafeIntOfNonNumericText("abc", 0);
    PaddedSevenText();
    assert SeverityOf(String(" 7 ")) == 7;
    assert SeverityOf(String("abc")) == 0;
    assert Get([("severity", String(" 7 "))], "severity", Int(0)) == String(" 7 ");
    assert Get([("severity", String("abc"))], "severity", Int(0)) == String("abc");
  }

  /** A severity padded with U+001C, which `strip()` would remove but
      `int()` does not skip, falls back to 0. */
  lemma SeparatorSeverityExample()
    ensures Strip([0x1C as char, '7']) == "7"
    ensures HydrateDiagnosis(Object([("severity", String([0x1C as char, '7']))])).value.severity == 0
  {
    var s := [0x1C as char, '7'];
    StripPadded([0x1C as char], "7", []);
    assert [0x1C as char] + "7" + [] == s;
    SafeIntOfNonNumericText(s, 0);
    assert SeverityOf(String(s)) == 0;
    assert Get([("severity", String(s))], "severity", Int(0)) == String(s);
  }

  /** `int(" 7 ")` is 7. */
  lemma PaddedSevenText()
    ensures SafeInt(String(" 7 ")) == 7
  {
    SafeIntOfText(7, " ", " ");
    assert " " + IntText(7) + " " == " 7 ";
  }

  /** Out-of-range scores are pulled into 0..100, and a score of zero still
      yields an assessment. */
  lemma ScoreExamples()
    ensures HydrateCompatibility(Object([("score", Int(150))])).value == Some(Compatibility(100, ""))
    ensures HydrateCompatibility(Object([("score", Int(0))])).value == Some(Compatibility(0, ""))
    ensures HydrateCompatibility(Object([])).value == None
  {
  }
}

=== FILE: pyjson.dfy ===
/** A JSON value as `json.loads` hands it to the application, together with
    the Python behaviour the application applies to it: truthiness, `type()`
    names, `str()`, iteration and `dict.get`. */
module PyJson {
  import opened Results
  import opened Text

  /** The values of section 3 of RFC 8259. Numbers are integers here; an
      object is the dict `json.loads` builds, so its keys are distinct and in
      insertion order. */
  datatype Json =
    | Null
    | Bool(b: bool)
    | Int(n: int)
    | String(s: string)
    | Array(items: seq<Json>)
    | Object(fields: seq<(string, Json)>)

  /** Python's `bool(value)`. */
  predicate Truthy(j: Json) {
    match j
    case Null => false
    case Bool(b) => b
    case Int(n) => n != 0
    case String(s) => s != []
    case Array(items) => items != []
    case Object(fields) => fields != []
  }

  /** `type(value).__name__`. */
  function TypeName(j: Json): string {
    match j
    case Null => "NoneType"
    case Bool(_) => "bool"
    case Int(_) => "int"
    case String(_) => "str"
    case Array(_) => "list"
    case Object(_) => "dict"
  }

  /** The Python exceptions that handling an untrusted value can raise:
      `AttributeError` (a method such as `get` or `lower` is missing) and
      `TypeError` (the value cannot be iterated). */
  datatype PyFault =
    | NoAttribute(typeName: string, attribute: string)
    | NotIterable(typeName: string)

  /** `str(exc)` for those exceptions. */
  function FaultMessage(f: PyFault): string {
    match f
    case NoAttribute(t, a) => "'" + t + "' object has no attribute '" + a + "'"
    case NotIterable(t) => "'" + t + "' object is not iterable"
  }

  predicate HasKey(fields: seq<(string, Json)>, key: string) {
    exists i :: 0 <= i < |fields| && fields[i].0 == key
  }

  /** The value stored under the first entry with key `key`, if any. */
  function Lookup(fields: seq<(string, Json)>, key: string): Option<Json>
    decreases |fields|
  {
    if fields == [] then None
    else if fields[0].0 == key then Some(fields[0].1)
    else Lookup(fields[1..], key)
  }

  /** A lookup finds something exactly when the key is present, and what it
      finds is stored under that key. */
  lemma {:induction false} LookupFinds(fields: seq<(string, Json)>, key: string)
    ensures Lookup(fields, key).Some? <==> HasKey(fields, key)
    ensures Lookup(fields, key).Some? ==> (key, Lookup(fields, key).value) in fields
    decreases |fields|
  {
    if fields != [] && fields[0].0 != key {
      LookupFinds(fields[1..], key);
      if HasKey(fields, key) {
        var i :| 0 <= i < |fields| && fields[i].0 == key;
        assert fields[1..][i - 1].0 == key;
      }
      if HasKey(fields[1..], key) {
        var i :| 0 <= i < |fields[1..]| && fields[1..][i].0 == key;
        assert fields[i + 1].0 == key;
      }
    }
  }

  /** The value at position `i` is what a lookup of its key finds when no
      earlier entry has that key. */
  lemma {:induction false} LookupAt(fields: seq<(string, Json)>, i: nat)
    requires i < |fields|
    requires forall m :: 0 <= m < i ==> fields[m].0 != fields[i].0
    ensures Lookup(fields, fields[i].0) == Some(fields[i].1)
    decreases i
  {
    if i > 0 {
      LookupAt(fields[1..], i - 1);
    }
  }

  /** `v` is what `d.get(key, default)` may give: a value stored under
      `key` when the key is present, the default otherwise. */
  predicate StoredOrDefault(fields: seq<(string, Json)>, key: string, v: Json, default: Json) {
    if HasKey(fields, key) then (key, v) in fields else v == default
  }

  /** `x` is `f` of what `d.get(key, default)` gives: `f` of a value stored
      under `key` when the key is present, `f` of the default otherwise. */
  ghost predicate CoercedFrom<T>(fields: seq<(string, Json)>, key: string, x: T, default: Json, f: Json -> T) {
    exists v :: StoredOrDefault(fields, key, v, default) && x == f(v)
  }

  /** `d.get(key, default)` on a dict. */
  function Get(fields: seq<(string, Json)>, key: string, default: Json): Json {
    Lookup(fields, key).GetOr(default)
  }

  /** `get` gives a value stored under the key when the key is present, and
      the default otherwise. */
  lemma GetStoredOrDefault(fields: seq<(string, Json)>, key: string, default: Json)
    ensures StoredOrDefault(fields, key, Get(fields, key, default), default)
  {
    LookupFinds(fields, key);
  }

  /** What a `for` loop over the value visits: list items, the characters
      of a string, the keys of a dict; anything else raises `TypeError`. */
  function Iterate(j: Json): (r: Result<seq<Json>, PyFault>)
    ensures r.Success? <==> j.Array? || j.String? || j.Object?
    ensures r.Failure? ==> r.error == NotIterable(TypeName(j))
    ensures r.Success? ==> (r.value == [] <==> !Truthy(j))
    ensures j.Array? ==> r == Success(j.items)
  {
    match j
    case Array(items) => Success(items)
    case String(s) => Success(seq(|s|, k requires 0 <= k < |s| => String([s[k]])))
    case Object(fields) => Success(seq(|fields|, k requires 0 <= k < |fields| => String(fields[k].0)))
    case _ => Failure(NotIterable(TypeName(j)))
  }

  /** A `for` loop over a string visits its characters, each as a
      one-character string; over a dict it visits the keys, in order. */
  lemma IterateItems(j: Json)
    ensures j.String? ==> Iterate(j).Success? && |Iterate(j).value| == |j.s|
                          && forall k :: 0 <= k < |j.s| ==> Iterate(j).value[k] == String([j.s[k]])
    ensures j.Object? ==> Iterate(j).Success? && |Iterate(j).value| == |j.fields|
                          && forall k :: 0 <= k < |j.fields| ==> Iterate(j).value[k] == String(j.fields[k].0)
  {
  }

  /** `", ".join(parts)`. */
  function Join(parts: seq<string>): string
    decreases |parts|
  {
    if parts == [] then ""
    else if |parts| == 1 then parts[0]
    else parts[0] + ", " + Join(parts[1..])
  }

  function HexDigit(d: nat): char
    requires d < 16
  {
    if d < 10 then DigitChar(d) else ('a' as int + d - 10) as char
  }

  /** One character of a string's `repr`, quoted with `q`. */
  function ReprChar(c: char, q: char): string {
    if c == q || c == '\\' then ['\\', c]
    else if c == '\t' then "\\t"
    else if c == '\n' then "\\n"
    else if c == '\r' then "\\r"
    else if c < ' ' || c as int == 0x7F then ['\\', 'x', HexDigit(c as int / 16), HexDigit(c as int % 16)]
    else [c]
  }

  function ReprChars(s: string, q: char): string
    decreases |s|
  {
    if s == [] then "" else ReprChar(s[0], q) + ReprChars(s[1..], q)
  }

  /** `repr(s)`: single quotes unless the text holds a single quote and no
      double quote. */
  function QuoteRepr(s: string): string {
    var q := if '\'' in s && '"' !in s then '"' else '\'';
    [q] + ReprChars(s, q) + [q]
  }

  /** The characters a `repr` can start with. */
  predicate ReprLead(c: char) {
    c in "NTF-'\"[{" || IsDigit(c)
  }

  /** `repr(value)`. */
  function Repr(j: Json): (r: string)
    ensures r != [] && ReprLead(r[0])
    decreases j
  {
    match j
    case Null => "None"
    case Bool(b) => if b then "True" else "False"
    case Int(n) => IntText(n)
    case String(s) => QuoteRepr(s)
    case Array(items) =>
      "[" + Join(seq(|items|, k requires 0 <= k < |items| => Repr(items[k]))) + "]"
    case Object(fields) =>
      "{" + Join(seq(|fields|, k requires 0 <= k < |fields| =>
                       QuoteRepr(fields[k].0) + ": " + Repr(fields[k].1))) + "}"
  }

  /** `str(value)`: the text itself for a string, the `repr` otherwise. */
  function Str(j: Json): (r: string)
    ensures j.String? ==> r == j.s
    ensures r == [] <==> j == String([])
    ensures j.String? || (r != [] && ReprLead(r[0]))
  {
    match j
    case String(s) => s
    case _ => Repr(j)
  }
}

=== FILE: renderers.dfy ===
/** The decisions the result renderers make before any HTML is written:
    colour bands, safety badges, escaping, the command filter, the
    three-tweak cap and which sections appear. A rendered page is a sequence
    of blocks holding the (escaped) texts each template would show. */
module Renderers {
  import opened Results
  import opened Text
  import opened PyJson
  import opened Models

  // ---------------------------------------------------------------------
  // Escaping

  /** `html.escape(c, quote=True)` for one character. */
  function EscapeChar(c: char): string {
    if c == '&' then "&amp;"
    else if c == '<' then "&lt;"
    else if c == '>' then "&gt;"
    else if c == '"' then "&quot;"
    else if c == '\'' then "&#x27;"
    else [c]
  }

  /** The characters that would end a text or an attribute value. */
  predicate Markup(c: char) {
    c == '<' || c == '>' || c == '"' || c == '\''
  }

  /** The text starts with one of the five entities escaping inserts. */
  predicate StartsEntity(s: string) {
    "&amp;" <= s || "&lt;" <= s || "&gt;" <= s || "&quot;" <= s || "&#x27;" <= s
  }

  /** Safe to splice into HTML: no markup character, and every `&` opens an
      entity. Stated one character at a time; `EscapedMeans` gives the
      positional reading. */
  predicate Escaped(s: string)
    decreases |s|
  {
    s == [] || ((if s[0] == '&' then StartsEntity(s) else !Markup(s[0])) && Escaped(s[1..]))
  }

  lemma {:induction false} EscapedMeans(s: string)
    ensures Escaped(s) <==> forall k :: 0 <= k < |s| ==> !Markup(s[k]) && (s[k] == '&' ==> StartsEntity(s[k..]))
    decreases |s|
  {
    if s != [] {
      EscapedMeans(s[1..]);
      forall k | 1 <= k < |s|
        ensures s[k] == s[1..][k - 1] && s[k..] == s[1..][k - 1..]
      {
      }
      assert s[0..] == s;
    }
  }

  /** Text with neither markup characters nor ampersands. */
  predicate Plain(s: string) {
    forall k :: 0 <= k < |s| ==> !Markup(s[k]) && s[k] != '&'
  }

  lemma {:induction false} PlainEscaped(s: string)
    requires Plain(s)
    ensures Escaped(s)
    decreases |s|
  {
    if s != [] {
      PlainEscaped(s[1..]);
    }
  }

  lemma {:induction false} EscapedConcat(a: string, b: string)
    requires Escaped(a) && Escaped(b)
    ensures Escaped(a + b)
    decreases |a|
  {
    if a == [] {
      assert a + b == b;
    } else {
      EscapedConcat(a[1..], b);
      assert (a + b)[1..] == a[1..] + b;
      assert (a + b)[0] == a[0];
      if a[0] == '&' {
        assert StartsEntity(a);
        assert StartsEntity(a + b);
      }
    }
  }

  lemma EscapeCharEscaped(c: char, rest: string)
    requires Escaped(rest)
    ensures Escaped(EscapeChar(c) + rest)
  {
    var head := EscapeChar(c);
    if head == [c] {
      PlainEscaped(head);
    } else {
      var u := head + rest;
      PlainEscaped(head[1..]);
      EscapedConcat(head[1..], rest);
      assert u[1..] == head[1..] + rest;
      assert head <= u;
    }
    EscapedConcat(head, rest);
  }

  /** `html.escape(text, quote=True)`. */
  function Escape(s: string): (r: string)
    ensures Escaped(r)
    decreases |s|
  {
    if s == [] then []
    else
      EscapeCharEscaped(s[0], Escape(s[1..|s|]));
      EscapeChar(s[0]) + Escape(s[1..|s|])
  }

  /** `html.unescape` restricted to the five entities escaping produces. */
  function Unescape(s: string): string
    decreases |s|
  {
    if s == [] then []
    else if "&amp;" <= s then "&" + Unescape(s[5..])
    else if "&lt;" <= s then "<" + Unescape(s[4..])
    else if "&gt;" <= s then ">" + Unescape(s[4..])
    else if "&quot;" <= s then "\"" + Unescape(s[6..])
    else if "&#x27;" <= s then "'" + Unescape(s[6..])
    else [s[0]] + Unescape(s[1..])
  }

  /** Unescaping one of the five entities in front of `rest` reads back the
      character it stands for. */
  lemma UnescapeEntity(entity: string, c: char, rest: string)
    requires (entity, c) in [("&amp;", '&'), ("&lt;", '<'), ("&gt;", '>'), ("&quot;", '"'), ("&#x27;", '\'')]
    ensures Unescape(entity + rest) == [c] + Unescape(rest)
  {
    var u := entity + rest;
    assert u[|entity|..] == rest;
    assert entity <= u;
    assert u[1] == entity[1];
  }

  lemma UnescapeChar(c: char, rest: string)
    ensures Unescape(EscapeChar(c) + rest) == [c] + Unescape(rest)
  {
    if c == '&' {
      UnescapeEntity("&amp;", c, rest);
    } else if c == '<' {
      UnescapeEntity("&lt;", c, rest);
    } else if c == '>' {
      UnescapeEntity("&gt;", c, rest);
    } else if c == '"' {
      UnescapeEntity("&quot;", c, rest);
    } else if c == '\'' {
      UnescapeEntity("&#x27;", c, rest);
    } else {
      var u := [c] + rest;
      assert u[0] == c && u[1..] == rest;
    }
  }

  /** Escaping loses nothing: the original text is recovered from it. */
  lemma {:induction false} UnescapeEscape(s: string)
    ensures Unescape(Escape(s)) == s
    decreases |s|
  {
    if s != [] {
      assert s[1..|s|] == s[1..];
      UnescapeEscape(s[1..]);
      UnescapeChar(s[0], Escape(s[1..]));
      assert s == [s[0]] + s[1..];
    }
  }

  /** Text without markup characters and ampersands is shown as it is. */
  lemma {:induction false} EscapePlain(s: string)
    requires Plain(s)
    ensures Escape(s) == s
    decreases |s|
  {
    if s != [] {
      assert s[1..|s|] == s[1..];
      EscapePlain(s[1..]);
      assert s == [s[0]] + s[1..];
    }
  }

  /** `_sanitize(value)`: `str()` first, then escaping. */
  function Sanitize(j: Json): (r: string)
    ensures Escaped(r)
    ensures Unescape(r) == Str(j)
  {
    UnescapeEscape(Str(j));
    Escape(Str(j))
  }

  // ---------------------------------------------------------------------
  // Colour bands and badges

  datatype Color = Green | Amber | Red

  function ColorVar(c: Color): string {
    match c
    case Green => "var(--status-green)"
    case Amber => "var(--status-amber)"
    case Red => "var(--status-red)"
  }

  /** How alarming a colour is. */
  function Alarm(c: Color): nat {
    match c
    case Green => 0
    case Amber => 1
    case Red => 2
  }

  /** `_severity_color`: green up to 3, amber from 4 to 6, red from 7. */
  function SeverityColor(score: int): (c: Color)
    ensures c == Green <==> score <= 3
    ensures c == Amber <==> 4 <= score <= 6
    ensures c == Red <==> 7 <= score
  {
    if score <= 3 then Green
    else if score <= 6 then Amber
    else Red
  }

  /** The colour of the compatibility score: green from 70, amber from 40
      to 69, red below 40. */
  function CompatibilityColor(score: int): (c: Color)
    ensures c == Green <==> 70 <= score
    ensures c == Amber <==> 40 <= score < 70
    ensures c == Red <==> score < 40
  {
    if score >= 70 then Green
    else if score >= 40 then Amber
    else Red
  }

  /** A worse severity never gets a calmer colour. */
  lemma SeverityColorMonotone(a: int, b: int)
    requires a <= b
    ensures Alarm(SeverityColor(a)) <= Alarm(SeverityColor(b))
  {
  }

  /** A better compatibility score never gets a more alarming colour. */
  lemma CompatibilityColorAntitone(a: int, b: int)
    requires a <= b
    ensures Alarm(CompatibilityColor(b)) <= Alarm(CompatibilityColor(a))
  {
  }

  datatype Badge = BadgeSafe | BadgeCaution | BadgeRisky

  function BadgeClass(b: Badge): string {
    match b
    case BadgeSafe => "badge-safe"
    case BadgeCaution => "badge-caution"
    case BadgeRisky => "badge-risky"
  }

  /** `_safety_badge_class(safety)`: a lookup of the lower-cased level with
      "badge-safe" as the fallback. A value that is not text has no
      `lower` method. */
  function SafetyBadge(safety: Json): (r: Result<Badge, PyFault>)
    ensures r.Success? <==> safety.String?
    ensures r.Failure? ==> r.error == NoAttribute(TypeName(safety), "lower")
    ensures r.Success? ==> (r.value == BadgeCaution <==> Lower(safety.s) == "caution")
    ensures r.Success? ==> (r.value == BadgeRisky <==> Lower(safety.s) == "advanced")
  {
    if !safety.String? then Failure(NoAttribute(TypeName(safety), "lower"))
    else
      var key := Lower(safety.s);
      if key == "caution" then Success(BadgeCaution)
      else if key == "advanced" then Success(BadgeRisky)
      else Success(BadgeSafe)
  }

  lemma LowerIdempotent(s: string)
    ensures Lower(Lower(s)) == Lower(s)
  {
  }

  /** The badge does not depend on letter case. */
  lemma SafetyBadgeIgnoresCase(s: string)
    ensures SafetyBadge(String(s)) == SafetyBadge(String(Lower(s)))
  {
    LowerIdempotent(s);
  }

  lemma SafetyBadgeExamples()
    ensures SafetyBadge(String("CAUTION")) == Success(BadgeCaution)
    ensures SafetyBadge(String("Advanced")) == Success(BadgeRisky)
    ensures SafetyBadge(String("unknown")) == Success(BadgeSafe)
    ensures SafetyBadge(Null) == Failure(NoAttribute("NoneType", "lower"))
  {
    assert Lower("CAUTION") == "caution";
    assert Lower("Advanced") == "advanced";
    assert Lower("unknown") == "unknown";
  }

  // ---------------------------------------------------------------------
  // Selection

  /** The elements that satisfy `keep`, in their original order. */
  function Select<T>(s: seq<T>, keep: T -> bool): (r: seq<T>)
    ensures |r| <= |s|
    decreases |s|
  {
    if s == [] then []
    else (if keep(s[0]) then [s[0]] else []) + Select(s[1..], keep)
  }

  /** What is selected: exactly the elements that pass. */
  lemma {:induction false} SelectMembers<T>(s: seq<T>, keep: T -> bool)
    ensures forall x :: x in Select(s, keep) <==> x in s && keep(x)
    decreases |s|
  {
    if s != [] {
      SelectMembers(s[1..], keep);
      var h := if keep(s[0]) then [s[0]] else [];
      assert Select(s, keep) == h + Select(s[1..], keep);
      assert s == [s[0]] + s[1..];
    }
  }

  /** Selection keeps every copy of what passes: each passing value occurs
      as often as in the input, every other value not at all. */
  lemma {:induction false} SelectCounts<T>(s: seq<T>, keep: T -> bool)
    ensures forall x :: multiset(Select(s, keep))[x] == if keep(x) then multiset(s)[x] else 0
    decreases |s|
  {
    if s != [] {
      SelectCounts(s[1..], keep);
      var h := if keep(s[0]) then [s[0]] else [];
      assert Select(s, keep) == h + Select(s[1..], keep);
      assert s == [s[0]] + s[1..];
      assert multiset(s) == multiset([s[0]]) + multiset(s[1..]);
      assert multiset(Select(s, keep)) == multiset(h) + multiset(Select(s[1..], keep));
    }
  }

  /** Selection distributes over concatenation, so it keeps relative order. */
  lemma {:induction false} SelectAppend<T>(a: seq<T>, b: seq<T>, keep: T -> bool)
    ensures Select(a + b, keep) == Select(a, keep) + Select(b, keep)
    decreases |a|
  {
    if a == [] {
      assert a + b == b;
    } else {
      assert (a + b)[0] == a[0];
      assert (a + b)[1..] == a[1..] + b;
      SelectAppend(a[1..], b, keep);
      var h := if keep(a[0]) then [a[0]] else [];
      assert Select(a + b, keep) == h + (Select(a[1..], keep) + Select(b, keep));
      assert Select(a, keep) == h + Select(a[1..], keep);
    }
  }

  /** Selecting from elements that all pass keeps everything. */
  lemma {:induction false} SelectAll<T>(s: seq<T>, keep: T -> bool)
    requires forall k :: 0 <= k < |s| ==> keep(s[k])
    ensures Select(s, keep) == s
    decreases |s|
  {
    if s != [] {
      SelectAll(s[1..], keep);
      assert keep(s[0]);
      assert Select(s, keep) == [s[0]] + Select(s[1..], keep);
      assert s == [s[0]] + s[1..];
    }
  }

  /** Selecting from elements that all fail keeps nothing. */
  lemma {:induction false} SelectNone<T>(s: seq<T>, keep: T -> bool)
    requires forall k :: 0 <= k < |s| ==> !keep(s[k])
    ensures Select(s, keep) == []
    decreases |s|
  {
    if s != [] {
      SelectNone(s[1..], keep);
    }
  }

  /** `c and c != "null"`. */
  predicate KeepCommand(c: Json) {
    Truthy(c) && c != String("null")
  }

  /** The command filter: drops empty and "null" entries, keeps the rest in
      order. */
  function FilterCommands(commands: seq<Json>): (r: seq<Json>)
    ensures forall k :: 0 <= k < |r| ==> KeepCommand(r[k])
    ensures forall c :: c in r <==> c in commands && KeepCommand(c)
  {
    SelectMembers(commands, KeepCommand);
    var r := Select(commands, KeepCommand);
    assert forall k :: 0 <= k < |r| ==> r[k] in r;
    r
  }

  /** The filter keeps every copy of a command it keeps: duplicates are not
      merged, and a dropped command leaves no copy behind. */
  lemma FilterCommandsCounts(commands: seq<Json>)
    ensures var r := FilterCommands(commands);
            forall c :: multiset(r)[c] == if KeepCommand(c) then multiset(commands)[c] else 0
  {
    SelectCounts(commands, KeepCommand);
  }

  /** Filtering twice is filtering once. */
  lemma FilterCommandsIdempotent(commands: seq<Json>)
    ensures FilterCommands(FilterCommands(commands)) == FilterCommands(commands)
  {
    var r := FilterCommands(commands);
    SelectAll(r, KeepCommand);
  }

  /** The filter keeps the relative order of what it keeps: filtering a
      concatenation filters each part in turn. */
  lemma FilterCommandsKeepsOrder(a: seq<Json>, b: seq<Json>)
    ensures FilterCommands(a + b) == FilterCommands(a) + FilterCommands(b)
  {
    SelectAppend(a, b, KeepCommand);
  }

  lemma FilterCommandsExample()
    ensures FilterCommands([String("cmd1"), String("null"), String(""), String("cmd2")])
         == [String("cmd1"), String("cmd2")]
  {
    var s := [String("cmd1"), String("null"), String(""), String("cmd2")];
    assert KeepCommand(s[0]) && !KeepCommand(s[1]) && !KeepCommand(s[2]) && KeepCommand(s[3]);
    assert s[1..][1..][1..][1..] == [];
    assert Select(s[1..][1..][1..], KeepCommand) == [s[3]];
    assert Select(s[1..][1..], KeepCommand) == [s[3]];
    assert Select(s[1..], KeepCommand) == [s[3]];
  }

  /** How many tweaks are rendered. */
  const MaxTweaks := 3

  /** `result.tweaks[:3]`. */
  function ShownTweaks(tweaks: seq<Tweak>): (r: seq<Tweak>)
    ensures |r| == if |tweaks| < MaxTweaks then |tweaks| else MaxTweaks
    ensures r == tweaks[..|r|]
  {
    if |tweaks| <= MaxTweaks then tweaks else tweaks[..MaxTweaks]
  }

  /** `f"{n:02d}"` for a non-negative number. */
  function TwoDigits(n: nat): (r: string)
    ensures |r| >= 2 && AllDigits(r)
    ensures DigitsValue(r) == n
  {
    if n < 10 then
      var r := "0" + NatText(n);
      assert r[..|r| - 1] == "0";
      r
    else NatText(n)
  }

  /** The number shown on the card of the tweak at position `idx`. */
  function TweakLabel(idx: nat): string {
    TwoDigits(idx + 1)
  }

  lemma TweakLabels()
    ensures TweakLabel(0) == "01" && TweakLabel(1) == "02" && TweakLabel(2) == "03"
  {
  }

  // ---------------------------------------------------------------------
  // Blocks

  const DiagnosisHeading := "## Diagnosis"
  const CompatibilityHeading := "## Compatibility"
  const OptimizationsHeading := "## Optimizations"
  const Rule := "---"
  const DoNotDoHeading := "### \U{26A0} Do Not Do"

  /** The fixed headings of the results page. */
  datatype Section = DiagnosisSection | CompatibilitySection | OptimizationsSection | RuleLine | DoNotDoSection

  /** The markdown each heading is written as. */
  function HeadingText(s: Section): string {
    match s
    case DiagnosisSection => DiagnosisHeading
    case CompatibilitySection => CompatibilityHeading
    case OptimizationsSection => OptimizationsHeading
    case RuleLine => Rule
    case DoNotDoSection => DoNotDoHeading
  }

  /** One `st.markdown` call: a fixed heading or one of the card templates
      with the texts it shows. */
  datatype Block =
    | Heading(section: Section)
    | DiagnosisHeader(bottleneck: string, secondary: Option<string>, severity: int, color: Color)
    | Summary(plainEnglish: string, reasoning: Option<string>)
    | CompatibilityCard(score: int, color: Color, note: string)
    | TweakCard(
        number: string,
        title: string,
        kind: string,
        badge: Badge,
        safety: string,
        steps: seq<string>,
        commands: seq<string>,
        rationale: string,
        revert: Option<string>)
    | WarningCard(action: string, reason: string)
    | ErrorCard(code: string, message: string)

  predicate AllEscaped(texts: seq<string>) {
    forall k :: 0 <= k < |texts| ==> Escaped(texts[k])
  }

  /** Every text a card shows went through escaping. */
  predicate CardEscaped(b: Block) {
    match b
    case Heading(_) => true
    case DiagnosisHeader(bottleneck, secondary, _, _) =>
      Escaped(bottleneck) && (secondary.Some? ==> Escaped(secondary.value))
    case Summary(plain, reasoning) => Escaped(plain) && (reasoning.Some? ==> Escaped(reasoning.value))
    case CompatibilityCard(_, _, note) => Escaped(note)
    case TweakCard(number, title, kind, _, safety, steps, commands, rationale, revert) =>
      && Escaped(number) && Escaped(title) && Escaped(kind) && Escaped(safety)
      && AllEscaped(steps) && AllEscaped(commands) && Escaped(rationale)
      && (revert.Some? ==> Escaped(revert.value))
    case WarningCard(action, reason) => Escaped(action) && Escaped(reason)
    case ErrorCard(code, message) => Escaped(code) && Escaped(message)
  }

  /** `render_diagnosis_header` and `render_plain_english`: the header shows
      the bottleneck type, the severity out of ten and, only for a truthy
      value, the secondary bottleneck; the summary shows the plain-English
      text and, only when non-empty, the reasoning. Every text reads back
      as the diagnosis field once escaping is undone. */
  function RenderDiagnosis(d: Diagnosis): (r: seq<Block>)
    ensures |r| == 2 && CardEscaped(r[0]) && CardEscaped(r[1])
    ensures r[0].DiagnosisHeader? && (r[0].secondary.Some? <==> Truthy(d.secondaryBottleneck))
    ensures r[0].severity == d.severity && r[0].color == SeverityColor(d.severity)
    ensures Unescape(r[0].bottleneck) == d.bottleneckType
    ensures r[0].secondary.Some? ==> Unescape(r[0].secondary.value) == Str(d.secondaryBottleneck)
    ensures r[1].Summary? && (r[1].reasoning.Some? <==> d.reasoning != [])
    ensures Unescape(r[1].plainEnglish) == d.plainEnglish
    ensures r[1].reasoning.Some? ==> Unescape(r[1].reasoning.value) == d.reasoning
  {
    UnescapeEscape(d.bottleneckType);
    UnescapeEscape(d.plainEnglish);
    UnescapeEscape(d.reasoning);
    [ DiagnosisHeader(
        Escape(d.bottleneckType),
        if Truthy(d.secondaryBottleneck) then Some(Sanitize(d.secondaryBottleneck)) else None,
        d.severity,
        SeverityColor(d.severity)),
      Summary(Escape(d.plainEnglish), if d.reasoning != [] then Some(Escape(d.reasoning)) else None) ]
  }

  /** `render_compatibility`. */
  function RenderCompatibility(c: Compatibility): (b: Block)
    ensures b.CompatibilityCard? && CardEscaped(b)
    ensures b.score == c.score && b.color == CompatibilityColor(c.score)
    ensures Unescape(b.note) == c.note
  {
    UnescapeEscape(c.note);
    CompatibilityCard(c.score, CompatibilityColor(c.score), Escape(c.note))
  }

  function SanitizeAll(items: seq<Json>): (r: seq<string>)
    ensures |r| == |items| && AllEscaped(r)
    ensures forall k :: 0 <= k < |items| ==> Unescape(r[k]) == Str(items[k])
  {
    seq(|items|, k requires 0 <= k < |items| => Sanitize(items[k]))
  }

  /** What a `for` loop accepts. */
  predicate Iterable(j: Json) {
    j.Array? || j.String? || j.Object?
  }

  /** The tweak fields the card template calls methods on or iterates over
      have the types that allows. */
  predicate TweakRenderable(t: Tweak) {
    t.safety.String? && Iterable(t.steps) && Iterable(t.commands)
  }

  /** `render_tweak_card(idx, tweak)`. It fails on a `safety` that is not
      text, then on `steps`, then on `commands` that cannot be iterated. */
  function RenderTweakCard(idx: nat, t: Tweak): (r: Result<Block, PyFault>)
    ensures r.Success? <==> TweakRenderable(t)
    ensures !t.safety.String? ==> r == Failure(NoAttribute(TypeName(t.safety), "lower"))
    ensures t.safety.String? && !Iterable(t.steps) ==> r == Failure(NotIterable(TypeName(t.steps)))
    ensures t.safety.String? && Iterable(t.steps) && !Iterable(t.commands) ==> r == Failure(NotIterable(TypeName(t.commands)))
    ensures r.Success? ==> r.value.TweakCard? && CardEscaped(r.value)
    ensures r.Success? ==> r.value.number == TweakLabel(idx)
  {
    var badge :- SafetyBadge(t.safety);
    var steps :- Iterate(t.steps);
    var commands :- Iterate(t.commands);
    var number := TweakLabel(idx);
    assert Plain(number) by {
      forall k | 0 <= k < |number|
        ensures !Markup(number[k]) && number[k] != '&'
      {
        assert IsDigit(number[k]);
      }
    }
    PlainEscaped(number);
    Success(TweakCard(
      number := number,
      title := Sanitize(t.title),
      kind := Sanitize(t.kind),
      badge := badge,
      safety := Sanitize(t.safety),
      steps := SanitizeAll(steps),
      commands := SanitizeAll(FilterCommands(commands)),
      rationale := Sanitize(t.rationale),
      revert := if Truthy(t.revert) then Some(Sanitize(t.revert)) else None))
  }

  /** A card shows the tweak's own texts (as they read after escaping is
      undone): its title, kind, safety level and rationale, every step in
      order, exactly the commands the filter keeps, and a revert line only
      for a truthy `revert`. */
  lemma TweakCardContents(idx: nat, t: Tweak)
    requires TweakRenderable(t)
    ensures var card := RenderTweakCard(idx, t).value;
            && Unescape(card.title) == Str(t.title)
            && Unescape(card.kind) == Str(t.kind)
            && Unescape(card.safety) == t.safety.s
            && Unescape(card.rationale) == Str(t.rationale)
            && card.badge == SafetyBadge(t.safety).value
            && (card.revert.Some? <==> Truthy(t.revert))
            && (card.revert.Some? ==> Unescape(card.revert.value) == Str(t.revert))
  {
  }

  /** The card's step list is the tweak's steps, one for one. */
  lemma TweakCardSteps(idx: nat, t: Tweak)
    requires TweakRenderable(t)
    ensures var card := RenderTweakCard(idx, t).value;
            var steps := Iterate(t.steps).value;
            && |card.steps| == |steps|
            && forall k :: 0 <= k < |steps| ==> Unescape(card.steps[k]) == Str(steps[k])
  {
  }

  /** The card's command list is the filtered commands, one for one. */
  lemma TweakCardCommands(idx: nat, t: Tweak)
    requires TweakRenderable(t)
    ensures var card := RenderTweakCard(idx, t).value;
            var kept := FilterCommands(Iterate(t.commands).value);
            && |card.commands| == |kept|
            && forall k :: 0 <= k < |kept| ==> Unescape(card.commands[k]) == Str(kept[k])
  {
  }

  /** Blocks written so far, and the fault that stopped rendering, if any. */
  datatype Rendered = Rendered(blocks: seq<Block>, fault: Option<PyFault>)

  /** A `for` loop that renders one card per item, numbered from `start`,
      until the first item whose card raises. */
  function RenderEach<T>(items: seq<T>, start: nat, render: (nat, T) -> Result<Block, PyFault>): (r: Rendered)
    ensures |r.blocks| <= |items|
    ensures r.fault.None? ==> |r.blocks| == |items|
    decreases |items|
  {
    if items == [] then Rendered([], None)
    else
      match render(start, items[0])
      case Failure(f) => Rendered([], Some(f))
      case Success(card) =>
        var rest := RenderEach(items[1..], start + 1, render);
        Rendered([card] + rest.blocks, rest.fault)
  }

  /** What the loop wrote: the card of each item before the stop, in order;
      it stops exactly when an item raises, and the fault is that item's. */
  lemma {:induction false} RenderEachMeans<T>(items: seq<T>, start: nat, render: (nat, T) -> Result<Block, PyFault>)
    ensures var r := RenderEach(items, start, render);
            && (r.fault.None? <==> forall i :: 0 <= i < |items| ==> render(start + i, items[i]).Success?)
            && (r.fault.Some? ==> |r.blocks| < |items| && render(start + |r.blocks|, items[|r.blocks|]) == Failure(r.fault.value))
            && (forall i :: 0 <= i < |r.blocks| ==> render(start + i, items[i]) == Success(r.blocks[i]))
    decreases |items|
  {
    if items != [] && render(start, items[0]).Success? {
      var tail := items[1..];
      var rest := RenderEach(tail, start + 1, render);
      RenderEachMeans(tail, start + 1, render);
      var r := RenderEach(items, start, render);
      assert r.blocks == [render(start, items[0]).value] + rest.blocks && r.fault == rest.fault;
      forall i | 1 <= i < |items|
        ensures render(start + i, items[i]) == render(start + 1 + (i - 1), tail[i - 1])
      {
      }
      forall i | 1 <= i < |r.blocks|
        ensures r.blocks[i] == rest.blocks[i - 1]
      {
      }
    }
  }

  function WarningCardOf(w: DoNotDo): (b: Block)
    ensures b.WarningCard? && CardEscaped(b)
    ensures Unescape(b.action) == Str(w.action) && Unescape(b.reason) == Str(w.reason)
  {
    WarningCard(Sanitize(w.action), Sanitize(w.reason))
  }

  /** `render_do_not_do`: a rule, a heading and one card per warning, none
      left out. */
  function RenderWarnings(items: seq<DoNotDo>): (r: seq<Block>)
    ensures items == [] <==> r == []
    ensures items != [] ==> |r| == |items| + 2 && r[0] == Heading(RuleLine) && r[1] == Heading(DoNotDoSection)
    ensures items != [] ==> r[2..] == WarningCards(items)
  {
    if items == [] then []
    else [Heading(RuleLine), Heading(DoNotDoSection)] + WarningCards(items)
  }

  /** One warning card per item, in order. */
  function WarningCards(items: seq<DoNotDo>): (r: seq<Block>)
    ensures |r| == |items|
    ensures forall i :: 0 <= i < |items| ==> r[i] == WarningCardOf(items[i])
  {
    seq(|items|, i requires 0 <= i < |items| => WarningCardOf(items[i]))
  }

  /** The leading blocks: the diagnosis section and, when there is an
      assessment, the compatibility section. */
  function RenderHead(r: DiagnosticResponse): (bs: seq<Block>)
    ensures |bs| >= 3 && bs[0] == Heading(DiagnosisSection)
    ensures forall k :: 0 <= k < |bs| ==> !bs[k].TweakCard? && !bs[k].WarningCard?
    ensures CardsEscaped(bs)
  {
    var d := RenderDiagnosis(r.diagnosis);
    match r.compatibility
    case None => [Heading(DiagnosisSection), d[0], d[1]]
    case Some(c) => [Heading(DiagnosisSection), d[0], d[1], Heading(CompatibilitySection), RenderCompatibility(c)]
  }

  predicate CardsEscaped(bs: seq<Block>) {
    forall k :: 0 <= k < |bs| ==> CardEscaped(bs[k])
  }

  lemma CardsEscapedConcat(a: seq<Block>, b: seq<Block>)
    requires CardsEscaped(a) && CardsEscaped(b)
    ensures CardsEscaped(a + b)
  {
    forall k | 0 <= k < |a + b|
      ensures CardEscaped((a + b)[k])
    {
      if k >= |a| {
        assert (a + b)[k] == b[k - |a|];
      }
    }
  }

  /** The tweak loop of `render_full_results`: the first three tweaks,
      numbered from 01, until one of them raises. */
  function RenderTweaks(tweaks: seq<Tweak>): (out: Rendered)
    ensures |out.blocks| <= |ShownTweaks(tweaks)|
  {
    RenderEach(ShownTweaks(tweaks), 0, RenderTweakCard)
  }

  /** The loop raises exactly when one of the shown tweaks cannot be
      rendered; the tweaks past the third are never looked at. */
  lemma TweaksFault(tweaks: seq<Tweak>)
    ensures RenderTweaks(tweaks).fault.None?
        <==> forall i :: 0 <= i < |ShownTweaks(tweaks)| ==> TweakRenderable(tweaks[i])
  {
    var shown := ShownTweaks(tweaks);
    RenderEachMeans(shown, 0, RenderTweakCard);
    if forall i :: 0 <= i < |shown| ==> TweakRenderable(tweaks[i]) {
      forall i | 0 <= i < |shown|
        ensures RenderTweakCard(0 + i, shown[i]).Success?
      {
        assert shown[i] == tweaks[i];
      }
    } else {
      var i :| 0 <= i < |shown| && !TweakRenderable(tweaks[i]);
      assert shown[i] == tweaks[i];
      assert !RenderTweakCard(0 + i, shown[i]).Success?;
    }
  }

  /** The card of each shown tweak, numbered from 01, when all of them can
      be rendered. */
  function TweakCards(tweaks: seq<Tweak>): (r: seq<Block>)
    requires forall i :: 0 <= i < |ShownTweaks(tweaks)| ==> TweakRenderable(tweaks[i])
    ensures |r| == |ShownTweaks(tweaks)|
    ensures forall i :: 0 <= i < |r| ==> Success(r[i]) == RenderTweakCard(i, tweaks[i])
  {
    var shown := ShownTweaks(tweaks);
    seq(|shown|, i requires 0 <= i < |shown| => RenderTweakCard(i, tweaks[i]).value)
  }

  /** Blocks that agree card by card with the shown tweaks are their cards. */
  lemma TweakCardsAgree(tweaks: seq<Tweak>, blocks: seq<Block>)
    requires forall i :: 0 <= i < |ShownTweaks(tweaks)| ==> TweakRenderable(tweaks[i])
    requires |blocks| == |ShownTweaks(tweaks)|
    requires forall i :: 0 <= i < |blocks| ==> RenderTweakCard(0 + i, ShownTweaks(tweaks)[i]) == Success(blocks[i])
    ensures blocks == TweakCards(tweaks)
  {
    var expected := TweakCards(tweaks);
    forall i | 0 <= i < |expected|
      ensures blocks[i] == expected[i]
    {
      assert ShownTweaks(tweaks)[i] == tweaks[i];
      var c := RenderTweakCard(i, tweaks[i]);
      assert c == Success(blocks[i]);
      assert c == Success(expected[i]);
    }
  }

  /** Without a fault, the loop shows one card per shown tweak, in order. */
  lemma TweaksShown(tweaks: seq<Tweak>)
    requires forall i :: 0 <= i < |ShownTweaks(tweaks)| ==> TweakRenderable(tweaks[i])
    ensures RenderTweaks(tweaks).fault.None?
    ensures RenderTweaks(tweaks).blocks == TweakCards(tweaks)
  {
    var shown := ShownTweaks(tweaks);
    var cards := RenderEach(shown, 0, RenderTweakCard);
    RenderEachMeans(shown, 0, RenderTweakCard);
    forall i | 0 <= i < |shown|
      ensures RenderTweakCard(0 + i, shown[i]).Success?
    {
      assert shown[i] == tweaks[i];
    }
    TweakCardsAgree(tweaks, cards.blocks);
  }

  /** The loop writes only tweak cards, all of them escaped. */
  lemma TweaksAreCards(tweaks: seq<Tweak>)
    ensures var bs := RenderTweaks(tweaks).blocks;
            forall k :: 0 <= k < |bs| ==> bs[k].TweakCard? && CardEscaped(bs[k])
  {
    var shown := ShownTweaks(tweaks);
    RenderEachMeans(shown, 0, RenderTweakCard);
  }

  /** A fault is the one raised by the first shown tweak that cannot be
      rendered: every card before it was rendered, and nothing after it. */
  lemma TweaksFirstFault(tweaks: seq<Tweak>)
    ensures var out := RenderTweaks(tweaks);
            out.fault.Some? ==>
              exists i :: 0 <= i < |ShownTweaks(tweaks)|
                && RenderTweakCard(i, tweaks[i]) == Failure(out.fault.value)
                && (forall j :: 0 <= j < i ==> TweakRenderable(tweaks[j]))
  {
    var shown := ShownTweaks(tweaks);
    var cards := RenderEach(shown, 0, RenderTweakCard);
    RenderEachMeans(shown, 0, RenderTweakCard);
    if cards.fault.Some? {
      var i := |cards.blocks|;
      forall j | 0 <= j < i
        ensures TweakRenderable(tweaks[j])
      {
        assert shown[j] == tweaks[j];
        assert RenderTweakCard(0 + j, shown[j]).Success?;
      }
      assert shown[i] == tweaks[i];
      assert RenderTweakCard(i, tweaks[i]) == Failure(cards.fault.value);
    }
  }

  /** How `render_full_results` puts the sections together: the head; when
      there are tweaks, their heading and cards; then the warnings, unless a
      card raised, which stops the page where it is. */
  function Assemble(head: seq<Block>, hasTweaks: bool, cards: Rendered, warnings: seq<Block>): (out: Rendered)
    ensures out.fault == if hasTweaks then cards.fault else None
  {
    var fault := if hasTweaks then cards.fault else None;
    Rendered(head + TweakSection(hasTweaks, cards.blocks) + (if fault.None? then warnings else []), fault)
  }

  /** The optimizations heading and the cards, when there are tweaks. */
  function TweakSection(hasTweaks: bool, cards: seq<Block>): seq<Block> {
    if hasTweaks then [Heading(OptimizationsSection)] + cards else []
  }

  /** Selecting from an assembled page selects from each section in turn. */
  lemma AssembleSelect(head: seq<Block>, hasTweaks: bool, cards: Rendered, warnings: seq<Block>, keep: Block -> bool)
    ensures var out := Assemble(head, hasTweaks, cards, warnings);
            Select(out.blocks, keep)
            == Select(head, keep)
               + (if hasTweaks then Select([Heading(OptimizationsSection)], keep) + Select(cards.blocks, keep) else [])
               + (if out.fault.None? then Select(warnings, keep) else [])
  {
    var out := Assemble(head, hasTweaks, cards, warnings);
    var middle := TweakSection(hasTweaks, cards.blocks);
    var tail := if out.fault.None? then warnings else [];
    SelectAppend(head, middle, keep);
    SelectAppend(head + middle, tail, keep);
    if hasTweaks {
      SelectAppend([Heading(OptimizationsSection)], cards.blocks, keep);
    }
  }

  /** A kind of block found only in the warnings section. */
  lemma AssembleSelectTail(head: seq<Block>, hasTweaks: bool, cards: Rendered, warnings: seq<Block>, keep: Block -> bool)
    requires Select(head, keep) == [] && Select(cards.blocks, keep) == [] && !keep(Heading(OptimizationsSection))
    ensures var out := Assemble(head, hasTweaks, cards, warnings);
            Select(out.blocks, keep) == if out.fault.None? then Select(warnings, keep) else []
  {
    AssembleSelect(head, hasTweaks, cards, warnings, keep);
    assert Select([Heading(OptimizationsSection)], keep) == [];
  }

  /** A kind of block found only among the tweak cards. */
  lemma AssembleSelectMiddle(head: seq<Block>, hasTweaks: bool, cards: Rendered, warnings: seq<Block>, keep: Block -> bool)
    requires Select(head, keep) == [] && Select(warnings, keep) == [] && !keep(Heading(OptimizationsSection))
    ensures Select(Assemble(head, hasTweaks, cards, warnings).blocks, keep) == if hasTweaks then Select(cards.blocks, keep) else []
  {
    AssembleSelect(head, hasTweaks, cards, warnings, keep);
    assert Select([Heading(OptimizationsSection)], keep) == [];
  }

  /** The head is written first, whatever follows. */
  lemma AssembleStartsWithHead(head: seq<Block>, hasTweaks: bool, cards: Rendered, warnings: seq<Block>)
    ensures head <= Assemble(head, hasTweaks, cards, warnings).blocks
  {
    var out := Assemble(head, hasTweaks, cards, warnings);
    var rest := TweakSection(hasTweaks, cards.blocks) + (if out.fault.None? then warnings else []);
    assert out.blocks == head + rest;
  }

  /** `render_full_results(result)`: rendering stops at the first shown
      tweak that cannot be rendered; the blocks written before it stay. */
  function RenderFullResults(r: DiagnosticResponse): (out: Rendered)
    ensures out.fault == if r.tweaks == [] then None else RenderTweaks(r.tweaks).fault
  {
    Assemble(RenderHead(r), r.tweaks != [], RenderTweaks(r.tweaks), RenderWarnings(r.doNotDo))
  }

  /** The page ends in a fault exactly when one of the first three tweaks
      cannot be rendered. */
  lemma ResultsFault(r: DiagnosticResponse)
    ensures RenderFullResults(r).fault.None?
        <==> forall i :: 0 <= i < |ShownTweaks(r.tweaks)| ==> TweakRenderable(r.tweaks[i])
  {
    TweaksFault(r.tweaks);
  }

  /** A property every section has, the assembled page has. */
  lemma AssembleAll(head: seq<Block>, hasTweaks: bool, cards: Rendered, warnings: seq<Block>, p: Block -> bool)
    requires p(Heading(OptimizationsSection))
    requires forall k :: 0 <= k < |head| ==> p(head[k])
    requires forall k :: 0 <= k < |cards.blocks| ==> p(cards.blocks[k])
    requires forall k :: 0 <= k < |warnings| ==> p(warnings[k])
    ensures var bs := Assemble(head, hasTweaks, cards, warnings).blocks;
            forall k :: 0 <= k < |bs| ==> p(bs[k])
  {
    var out := Assemble(head, hasTweaks, cards, warnings);
    var middle := TweakSection(hasTweaks, cards.blocks);
    var tail := if out.fault.None? then warnings else [];
    if hasTweaks {
      AllConcat([Heading(OptimizationsSection)], cards.blocks, p);
    }
    AllConcat(head, middle, p);
    AllConcat(head + middle, tail, p);
  }

  lemma AllConcat<T>(a: seq<T>, b: seq<T>, p: T -> bool)
    requires forall k :: 0 <= k < |a| ==> p(a[k])
    requires forall k :: 0 <= k < |b| ==> p(b[k])
    ensures forall k :: 0 <= k < |a + b| ==> p((a + b)[k])
  {
    forall k | 0 <= k < |a + b|
      ensures p((a + b)[k])
    {
      if k >= |a| {
        assert (a + b)[k] == b[k - |a|];
      }
    }
  }

  /** Every text the results page shows has been escaped. */
  lemma ResultsEscaped(r: DiagnosticResponse)
    ensures CardsEscaped(RenderFullResults(r).blocks)
  {
    var head := RenderHead(r);
    var cards := RenderTweaks(r.tweaks);
    var warnings := RenderWarnings(r.doNotDo);
    TweaksAreCards(r.tweaks);
    assert CardsEscaped(warnings);
    AssembleAll(head, r.tweaks != [], cards, warnings, CardEscaped);
  }

  predicate IsHeading(b: Block) {
    b.Heading?
  }

  predicate IsTweakCard(b: Block) {
    b.TweakCard?
  }

  predicate IsWarningCard(b: Block) {
    b.WarningCard?
  }

  lemma HeadLayout(r: DiagnosticResponse)
    ensures Select(RenderHead(r), IsHeading)
         == [Heading(DiagnosisSection)] + (if r.compatibility.Some? then [Heading(CompatibilitySection)] else [])
    ensures Select(RenderHead(r), IsTweakCard) == [] && Select(RenderHead(r), IsWarningCard) == []
  {
    var d := RenderDiagnosis(r.diagnosis);
    var diagnosis := [Heading(DiagnosisSection)] + d;
    SelectNone(d, IsHeading);
    SelectAll([Heading(DiagnosisSection)], IsHeading);
    SelectAppend([Heading(DiagnosisSection)], d, IsHeading);
    SelectNone(RenderHead(r), IsTweakCard);
    SelectNone(RenderHead(r), IsWarningCard);
    if r.compatibility.Some? {
      var c := [Heading(CompatibilitySection), RenderCompatibility(r.compatibility.value)];
      assert c == [c[0]] + [c[1]];
      SelectAll([c[0]], IsHeading);
      SelectNone([c[1]], IsHeading);
      SelectAppend([c[0]], [c[1]], IsHeading);
      SelectAppend(diagnosis, c, IsHeading);
      assert RenderHead(r) == diagnosis + c;
    } else {
      assert RenderHead(r) == diagnosis;
    }
  }

  lemma WarningsLayout(items: seq<DoNotDo>)
    ensures Select(RenderWarnings(items), IsHeading)
         == if items == [] then [] else [Heading(RuleLine), Heading(DoNotDoSection)]
    ensures Select(RenderWarnings(items), IsWarningCard) == WarningCards(items)
    ensures Select(RenderWarnings(items), IsTweakCard) == []
  {
    var w := RenderWarnings(items);
    SelectNone(w, IsTweakCard);
    if items != [] {
      var headings := [Heading(RuleLine), Heading(DoNotDoSection)];
      var cards := WarningCards(items);
      SelectAll(headings, IsHeading);
      SelectNone(headings, IsWarningCard);
      SelectNone(cards, IsHeading);
      SelectAll(cards, IsWarningCard);
      SelectAppend(headings, cards, IsHeading);
      SelectAppend(headings, cards, IsWarningCard);
    }
  }

  /** The headings of the results page, in order. After a fault only the
      blocks before it are on the page. */
  lemma ResultsHeadings(r: DiagnosticResponse)
    ensures var out := RenderFullResults(r);
            Select(out.blocks, IsHeading)
            == HeadingList(r.compatibility.Some?, r.tweaks != [], out.fault.None? && r.doNotDo != [])
  {
    var cards := RenderTweaks(r.tweaks);
    HeadLayout(r);
    WarningsLayout(r.doNotDo);
    TweaksAreCards(r.tweaks);
    SelectNone(cards.blocks, IsHeading);
    SelectAll([Heading(OptimizationsSection)], IsHeading);
    AssembleSelect(RenderHead(r), r.tweaks != [], cards, RenderWarnings(r.doNotDo), IsHeading);
  }

  /** The tweak cards: one for each of the first three tweaks, in order,
      numbered from 01. */
  lemma ResultsTweakCards(r: DiagnosticResponse)
    requires forall i :: 0 <= i < |ShownTweaks(r.tweaks)| ==> TweakRenderable(r.tweaks[i])
    ensures RenderFullResults(r).fault.None?
    ensures Select(RenderFullResults(r).blocks, IsTweakCard) == TweakCards(r.tweaks)
  {
    var cards := RenderTweaks(r.tweaks);
    HeadLayout(r);
    WarningsLayout(r.doNotDo);
    TweaksAreCards(r.tweaks);
    TweaksShown(r.tweaks);
    SelectAll(cards.blocks, IsTweakCard);
    AssembleSelectMiddle(RenderHead(r), r.tweaks != [], cards, RenderWarnings(r.doNotDo), IsTweakCard);
  }

  /** A fault on the results page is the one raised by the first shown
      tweak that cannot be rendered. */
  lemma ResultsFirstFault(r: DiagnosticResponse)
    ensures var out := RenderFullResults(r);
            out.fault.Some? ==>
              exists i :: 0 <= i < |ShownTweaks(r.tweaks)|
                && RenderTweakCard(i, r.tweaks[i]) == Failure(out.fault.value)
                && (forall j :: 0 <= j < i ==> TweakRenderable(r.tweaks[j]))
  {
    TweaksFirstFault(r.tweaks);
  }

  /** The warning cards: every warning, in order, unless a tweak card
      raised first. */
  lemma ResultsWarningCards(r: DiagnosticResponse)
    ensures var out := RenderFullResults(r);
            Select(out.blocks, IsWarningCard)
            == if out.fault.None? then WarningCards(r.doNotDo) else []
  {
    var cards := RenderTweaks(r.tweaks);
    HeadLayout(r);
    WarningsLayout(r.doNotDo);
    TweaksAreCards(r.tweaks);
    SelectNone(cards.blocks, IsWarningCard);
    AssembleSelectTail(RenderHead(r), r.tweaks != [], cards, RenderWarnings(r.doNotDo), IsWarningCard);
  }

  /** The headings a results page carries, in order, given which optional
      sections it has. */
  function HeadingList(compat: bool, tweaks: bool, warnings: bool): seq<Block> {
    [Heading(DiagnosisSection)]
    + (if compat then [Heading(CompatibilitySection)] else [])
    + (if tweaks then [Heading(OptimizationsSection)] else [])
    + (if warnings then [Heading(RuleLine), Heading(DoNotDoSection)] else [])
  }

  lemma HeadingListMembers(compat: bool, tweaks: bool, warnings: bool)
    ensures Heading(CompatibilitySection) in HeadingList(compat, tweaks, warnings) <==> compat
    ensures Heading(OptimizationsSection) in HeadingList(compat, tweaks, warnings) <==> tweaks
    ensures Heading(DoNotDoSection) in HeadingList(compat, tweaks, warnings) <==> warnings
  {
    var c: seq<Block> := if compat then [Heading(CompatibilitySection)] else [];
    var t: seq<Block> := if tweaks then [Heading(OptimizationsSection)] else [];
    var w: seq<Block> := if warnings then [Heading(RuleLine), Heading(DoNotDoSection)] else [];
    assert HeadingList(compat, tweaks, warnings) == [Heading(DiagnosisSection)] + c + t + w;
  }

  /** Reading section presence off the headings. */
  lemma PresenceFromHeadings(blocks: seq<Block>, compat: bool, tweaks: bool, warnings: bool)
    requires Select(blocks, IsHeading) == HeadingList(compat, tweaks, warnings)
    ensures Heading(CompatibilitySection) in blocks <==> compat
    ensures Heading(OptimizationsSection) in blocks <==> tweaks
    ensures Heading(DoNotDoSection) in blocks <==> warnings
  {
    SelectMembers(blocks, IsHeading);
    HeadingListMembers(compat, tweaks, warnings);
    assert IsHeading(Heading(CompatibilitySection)) && IsHeading(Heading(OptimizationsSection)) && IsHeading(Heading(DoNotDoSection));
  }

  /** The page starts with the head, whatever follows. */
  lemma ResultsStartWithHead(r: DiagnosticResponse)
    ensures RenderHead(r) <= RenderFullResults(r).blocks
  {
    AssembleStartsWithHead(RenderHead(r), r.tweaks != [], RenderTweaks(r.tweaks), RenderWarnings(r.doNotDo));
  }

  /** Which sections appear: compatibility exactly when there is an
      assessment (whatever its score), optimizations exactly when there are
      tweaks, the warnings exactly when there are some and rendering got
      that far. The diagnosis section always comes first. */
  lemma SectionPresence(r: DiagnosticResponse)
    ensures var out := RenderFullResults(r);
            && out.blocks != [] && out.blocks[0] == Heading(DiagnosisSection)
            && (Heading(CompatibilitySection) in out.blocks <==> r.compatibility.Some?)
            && (Heading(OptimizationsSection) in out.blocks <==> r.tweaks != [])
            && (Heading(DoNotDoSection) in out.blocks <==> out.fault.None? && r.doNotDo != [])
  {
    var out := RenderFullResults(r);
    ResultsHeadings(r);
    PresenceFromHeadings(out.blocks, r.compatibility.Some?, r.tweaks != [], out.fault.None? && r.doNotDo != []);
    ResultsStartWithHead(r);
    var head := RenderHead(r);
    assert out.blocks[0] == head[0];
  }

  /** `render_error(code, message)`: both texts escaped, nothing lost. */
  function RenderError(code: string, message: string): (b: Block)
    ensures b.ErrorCard? && CardEscaped(b)
    ensures Unescape(b.code) == code && Unescape(b.message) == message
  {
    UnescapeEscape(code);
    UnescapeEscape(message);
    ErrorCard(Escape(code), Escape(message))
  }
}

=== FILE: results.dfy ===
/** Failure-compatible wrappers used throughout the model: an optional value
    and a value-or-error result, both usable with `:-`. */
module Results {

  datatype Option<+T> = None | Some(value: T) {

    predicate IsFailure() {
      None?
    }

    function PropagateFailure<U>(): Option<U>
      requires None?
    {
      None
    }

    function Extract(): T
      requires Some?
    {
      value
    }

    /** Python's `x or default` on an optional value. */
    function GetOr(default: T): T {
      match this
      case Some(v) => v
      case None => default
    }
  }

  /** The outcome of a step that either produces a value or raises `error`. */
  datatype Result<+T, +E> = Success(value: T) | Failure(error: E) {

    predicate IsFailure() {
      Failure?
    }

    function PropagateFailure<U>(): Result<U, E>
      requires Failure?
    {
      Failure(error)
    }

    function Extract(): T
      requires Success?
    {
      value
    }
  }
}

=== FILE: text.dfy ===
/** The pieces of Python's `str` behaviour the application relies on:
    `str.isspace`/`str.strip`, ASCII `str.lower`, `int(text)` for decimal
    literals and `str(n)` for integers. */
module Text {
  import opened Results

  /** CPython's whitespace table (`str.isspace`), which `str.strip()`
      uses. */
  predicate IsSpace(c: char) {
    var n := c as int;
    (9 <= n <= 13) || (28 <= n <= 32) || n == 0x85 || n == 0xA0 || n == 0x1680
    || (0x2000 <= n <= 0x200A) || n == 0x2028 || n == 0x2029 || n == 0x202F
    || n == 0x205F || n == 0x3000
  }

  /** Every character is whitespace (the empty string included). */
  predicate Blank(s: string) {
    forall k :: 0 <= k < |s| ==> IsSpace(s[k])
  }

  /** No whitespace at either end: what `strip()` leaves behind. */
  predicate Trimmed(s: string) {
    s == [] || (!IsSpace(s[0]) && !IsSpace(s[|s| - 1]))
  }

  /** Where the leading whitespace from `i` on ends: the first index at or
      after `i` that does not hold whitespace. */
  function SkipSpaces(s: string, i: nat): (k: nat)
    requires i <= |s|
    ensures i <= k <= |s|
    ensures forall m :: i <= m < k ==> IsSpace(s[m])
    ensures k == |s| || !IsSpace(s[k])
    decreases |s| - i
  {
    if i < |s| && IsSpace(s[i]) then SkipSpaces(s, i + 1) else i
  }

  /** Where the trailing whitespace before `j` starts, never going below
      `lo`. */
  function BackSpaces(s: string, lo: nat, j: nat): (k: nat)
    requires lo <= j <= |s|
    ensures lo <= k <= j
    ensures forall m :: k <= m < j ==> IsSpace(s[m])
    ensures k == lo || !IsSpace(s[k - 1])
    decreases j
  {
    if j > lo && IsSpace(s[j - 1]) then BackSpaces(s, lo, j - 1) else j
  }

  /** `str.strip()`: the slice between the leading and the trailing
      whitespace. */
  function Strip(s: string): (r: string)
    ensures |r| <= |s|
    ensures Trimmed(r)
    ensures r == [] <==> Blank(s)
  {
    var i := SkipSpaces(s, 0);
    var j := BackSpaces(s, i, |s|);
    assert i < j ==> s[i..j][0] == s[i] && s[i..j][j - i - 1] == s[j - 1];
    assert Blank(s) ==> i == |s|;
    s[i..j]
  }

  /** `strip()` keeps exactly one contiguous slice of its input and removes
      only whitespace around it. */
  lemma StripSpan(s: string) returns (i: nat, j: nat)
    ensures i <= j <= |s|
    ensures Strip(s) == s[i..j]
    ensures Blank(s[..i]) && Blank(s[j..])
  {
    i := SkipSpaces(s, 0);
    j := BackSpaces(s, i, |s|);
    assert forall m :: 0 <= m < i ==> s[..i][m] == s[m];
    assert forall m :: 0 <= m < |s| - j ==> s[j..][m] == s[j + m];
  }

  /** Surrounding whitespace is exactly what `strip()` removes. */
  lemma StripPadded(pre: string, t: string, post: string)
    requires Blank(pre) && Blank(post) && Trimmed(t)
    ensures Strip(pre + t + post) == t
  {
    var s := pre + t + post;
    if t == [] {
      assert forall m :: 0 <= m < |pre| ==> s[m] == pre[m];
      assert forall m :: 0 <= m < |post| ==> s[|pre| + m] == post[m];
      assert Blank(s);
    } else {
      PaddedBounds(pre, t, post);
      assert s[|pre|..|pre| + |t|] == t;
    }
  }

  /** Around a non-empty trimmed text, the whitespace `strip()` skips is
      exactly the padding. */
  lemma PaddedBounds(pre: string, t: string, post: string)
    requires Blank(pre) && Blank(post) && Trimmed(t) && t != []
    ensures SkipSpaces(pre + t + post, 0) == |pre|
    ensures BackSpaces(pre + t + post, |pre|, |pre + t + post|) == |pre| + |t|
  {
    var s := pre + t + post;
    assert forall m :: 0 <= m < |pre| ==> s[m] == pre[m];
    assert forall m :: 0 <= m < |post| ==> s[|pre| + |t| + m] == post[m];
    assert s[|pre|] == t[0] && s[|pre| + |t| - 1] == t[|t| - 1];
  }

  /** `strip()` is idempotent. */
  lemma StripIdempotent(s: string)
    ensures Strip(Strip(s)) == Strip(s)
  {
    StripPadded([], Strip(s), []);
    assert [] + Strip(s) + [] == Strip(s);
  }

  /** ASCII part of `str.lower()`. */
  function LowerChar(c: char): char {
    if 'A' <= c <= 'Z' then (c as int + 32) as char else c
  }

  function Lower(s: string): (r: string)
    ensures |r| == |s|
    ensures forall k :: 0 <= k < |s| ==> r[k] == LowerChar(s[k])
  {
    seq(|s|, k requires 0 <= k < |s| => LowerChar(s[k]))
  }

  predicate IsDigit(c: char) {
    '0' <= c <= '9'
  }

  predicate AllDigits(s: string) {
    forall k :: 0 <= k < |s| ==> IsDigit(s[k])
  }

  function DigitValue(c: char): nat
    requires IsDigit(c)
  {
    c as int - '0' as int
  }

  function DigitChar(d: nat): (c: char)
    requires d < 10
    ensures IsDigit(c) && DigitValue(c) == d
  {
    ('0' as int + d) as char
  }

  /** The value of a run of decimal digits, most significant first. */
  function DigitsValue(s: string): nat
    requires AllDigits(s)
    decreases |s|
  {
    if s == [] then 0 else DigitsValue(s[..|s| - 1]) * 10 + DigitValue(s[|s| - 1])
  }

  /** `str(n)` for a non-negative integer: shortest decimal text, which
      reads back as `n`. */
  function NatText(n: nat): (r: string)
    ensures r != [] && AllDigits(r)
    ensures DigitsValue(r) == n
    ensures n > 0 ==> r[0] != '0'
    decreases n
  {
    if n < 10 then
      [DigitChar(n)]
    else
      var r := NatText(n / 10) + [DigitChar(n % 10)];
      assert r[..|r| - 1] == NatText(n / 10);
      r
  }

  /** `str(n)` for any integer. */
  function IntText(n: int): (r: string)
    ensures r != [] && IsDigit(r[|r| - 1])
    ensures r[0] == '-' <==> n < 0
    ensures r[0] == '-' || IsDigit(r[0])
  {
    if n < 0 then "-" + NatText(-n) else NatText(n)
  }

  /** CPython's default limit on the number of digits `int()` converts
      from text (`sys.get_int_max_str_digits()`); longer literals raise
      `ValueError`. */
  const MaxStrDigits: nat := 4300

  /** `n` is small enough that its decimal text is within the limit. */
  predicate FitsStrDigits(n: int) {
    |NatText(if n < 0 then -n else n)| <= MaxStrDigits
  }

  /** The whitespace `int()` skips around a literal: ASCII tab, line feed,
      vertical tab, form feed, carriage return and space, and every
      non-ASCII character `str.isspace` accepts. The ASCII separators
      U+001C to U+001F are whitespace to `str.isspace` and `strip()` but
      not to `int()`. */
  predicate IntSpace(c: char) {
    IsSpace(c) && !(0x1C <= c as int <= 0x1F)
  }

  /** Every character is whitespace `int()` skips. */
  predicate IntBlank(s: string) {
    forall k :: 0 <= k < |s| ==> IntSpace(s[k])
  }

  /** `int(text)` restricted to base-10 literals: surrounding whitespace
      `int()` skips, an optional sign, then one to `MaxStrDigits` ASCII
      digits. `None` stands for the `ValueError` Python raises on anything
      else. Since `IntSpace` is part of `IsSpace`, the literal is what
      `strip()` keeps, provided everything `strip()` removes is `IntSpace`;
      a separator among it stops `int()` next to the literal, and the
      literal is refused. */
  function ParseIntLiteral(s: string): (r: Option<int>)
    ensures Blank(s) ==> r.None?
    ensures r.Some? ==> |Strip(s)| <= MaxStrDigits + 1 && r == ParseSigned(Strip(s))
  {
    var i := SkipSpaces(s, 0);
    var j := BackSpaces(s, i, |s|);
    if IntBlank(s[..i]) && IntBlank(s[j..]) then ParseSigned(s[i..j]) else None
  }

  /** An optional sign followed by one to `MaxStrDigits` digits. */
  function ParseSigned(t: string): (r: Option<int>)
    ensures r.Some? ==> |t| <= MaxStrDigits + 1
  {
    var signed := t != [] && (t[0] == '-' || t[0] == '+');
    var body := if signed then t[1..] else t;
    if body != [] && AllDigits(body) && |body| <= MaxStrDigits then
      var v: int := DigitsValue(body);
      Some(if signed && t[0] == '-' then -v else v)
    else
      None
  }

  lemma ParseSignedText(n: int)
    requires FitsStrDigits(n)
    ensures ParseSigned(IntText(n)) == Some(n)
  {
    var t := IntText(n);
    if n < 0 {
      assert t[1..] == NatText(-n);
    } else {
      assert t == NatText(n);
    }
  }

  /** `int(str(n)) == n`, whatever whitespace `int()` skips surrounds the
      text, as long as the text is within the digit limit. */
  lemma ParseIntText(n: int, pre: string, post: string)
    requires IntBlank(pre) && IntBlank(post) && FitsStrDigits(n)
    ensures ParseIntLiteral(pre + IntText(n) + post) == Some(n)
  {
    var t := IntText(n);
    var s := pre + t + post;
    PaddedBounds(pre, t, post);
    assert s[..|pre|] == pre && s[|pre| + |t|..] == post;
    assert s[|pre|..|pre| + |t|] == t;
    ParseSignedText(n);
  }

  /** The separators U+001C to U+001F make `int()` fail wherever they
      stand, even as padding that `strip()` would remove. */
  lemma ParseIntSeparator(s: string, k: nat)
    requires k < |s| && 0x1C <= s[k] as int <= 0x1F
    ensures IsSpace(s[k]) && ParseIntLiteral(s) == None
  {
    ParseIntRejects(s, k);
  }

  /** A run of more than `MaxStrDigits` digits is refused, whatever
      whitespace surrounds it. */
  lemma ParseIntTooLong(pre: string, digits: string, post: string)
    requires Blank(pre) && Blank(post)
    requires AllDigits(digits) && |digits| > MaxStrDigits
    ensures ParseIntLiteral(pre + digits + post) == None
  {
    var s := pre + digits + post;
    assert IsDigit(digits[0]) && IsDigit(digits[|digits| - 1]);
    PaddedBounds(pre, digits, post);
    assert s[|pre|..|pre| + |digits|] == digits;
  }

  /** Text holding a character that is neither whitespace `int()` skips,
      a digit nor a sign is not an integer literal. */
  lemma ParseIntRejects(s: string, k: nat)
    requires k < |s| && !IntSpace(s[k]) && !IsDigit(s[k]) && s[k] != '+' && s[k] != '-'
    ensures ParseIntLiteral(s) == None
  {
    var i := SkipSpaces(s, 0);
    var j := BackSpaces(s, i, |s|);
    if k < i {
      assert s[..i][k] == s[k];
    } else if k >= j {
      assert s[j..][k - j] == s[k];
    } else {
      var t := s[i..j];
      assert t[k - i] == s[k];
      var body := if t[0] == '-' || t[0] == '+' then t[1..] else t;
      var p := if t[0] == '-' || t[0] == '+' then k - i - 1 else k - i;
      assert k == i ==> t[0] == s[k];
      assert 0 <= p < |body| && body[p] == s[k];
    }
  }
}
